=== FILE: README.md ===
# Kratos launcher: main-process bookkeeping and renderer rules, in Dafny

This project models the logic of the Kratos game launcher that can be stated
without Electron, the filesystem or the kratos-core library:

- the **indicator registry**: text and progress indicators, and the set of registered indicators;
- the **download pool**: a pending queue that `downloadAll` snapshots, clears and hands off as one batch;
- **launching a profile**: cache-or-fetch of the version package, then one sha1 download for every absent asset;
- **library file paths**: artifact and natives locations under the library workspace, with their error cases;
- the **profile and account stores**: list-backed create/delete/lookup, persisted after every change and loaded once;
- the renderer's **download-progress reducer**, **username check** and **searchable selector**.

Everything is a pure function over immutable datatypes, except three methods:
the asset-resolution loop, the regular-expression test, and `launchProfile`, which calls the asset loop.

How the environment is represented:
- JavaScript `undefined` is `Option.None`, and a thrown `Error` is `Result.Err`. The `Errors.Message` function gives the thrown text for every error the modelled code raises itself. `NetworkFailure` stands for a rejected kratos-core promise; its text belongs to that library, so `Message` gives a fixed label for it.
- The file contents of `profiles.json` and `accounts.json` are plain `Option<seq<…>>` values (`None`: no file).
- File existence is a predicate passed in by the caller.
- The kratos-core calls are functions bundled in `Kratos.Services`: fetching a package, fetching an asset index, an asset's path suffix and its URL.
- Fresh random ids (`randomUUID`, uuid `v4`) and indicator object identities are parameters.

Modules, one per source file, plus shared helpers:
- `Errors` and `Wrappers`: error type, `Option` and `Result`.
- `Seqs`: `filter`, `map`, and `find` (as the position of the first match).
- `Paths`: paths as segment sequences; `split`/`join` on `/`.
- `Kratos`: the kratos-core records.
- Per source file: `Indicators`, `DownloadPool`, `Launch`, `Libraries`, `Profiles`, `Accounts`, `DownloadSlice`, `RequestAccount` and `Selector`.

The initial download state is the constant `DownloadSlice.InitialState`: not downloading, every count 0, no message. `Profiles.GetAllProfiles` and `DownloadPool.PendingItems` are plain accessors.

Some helpers have no row of their own; the row named with each one states its behaviour:
- `Launch.HasAsset` (`src/main/asset.ts:12-30`): `Launch.EnqueuedIffMissing` and `Launch.ResolutionConverges`.
- `Selector.ClickFires` (the `SelectorItem` click guard): `Selector.ClickEntry`.

## Model

| member | source | states |
|---|---|---|
| Indicators.NewText | src/main/indicator/indicator.ts:8-40 | A new text indicator is visible only when `visible` was given as true; an absent text or subText is the empty string, a given one is kept |
| Indicators.NewProgress | src/main/indicator/indicator.ts:62-70 | A new progress indicator has progress 0 when none is given, the given progress otherwise, with the text-indicator defaults for the rest |
| Indicators.SetVisible | src/main/indicator/indicator.ts:19-21 | Visibility becomes the argument; kind, texts and progress are untouched |
| Indicators.Show | src/main/indicator/indicator.ts:23-25 | The indicator becomes visible and its content is untouched |
| Indicators.Hide | src/main/indicator/indicator.ts:27-29 | The indicator becomes hidden and its content is untouched |
| Indicators.ToggleIdempotent | src/main/indicator/indicator.ts:23-29 | Showing or hiding twice equals doing it once; the last toggle decides |
| Indicators.SetText | src/main/indicator/indicator.ts:50-52 | The text getter then returns the new text; subText, visibility, kind and progress are unchanged |
| Indicators.SetSubText | src/main/indicator/indicator.ts:54-56 | The subText getter then returns the new subText; everything else is unchanged |
| Indicators.SetProgress | src/main/indicator/indicator.ts:76-78 | On a progress indicator, progress becomes the argument and texts and visibility are unchanged |
| Indicators.Allocate | test/unit/indicator.spec.ts:82-87 | Constructing an indicator outside the registry adds exactly one fresh object and leaves the registry and every other object as they were |
| Indicators.CreateTextIndicator | src/main/indicator/indicator.ts:89-97 | Returns the fresh object, which is visible and holds the given text; the registry and the set of objects each gain exactly that one element (size + 1) and no existing object changes |
| Indicators.GetIndicators | src/main/indicator/indicator.ts:99-101 | The returned set is the registry, and every member is an allocated indicator |
| Indicators.DisposeIndicator | src/main/indicator/indicator.ts:103-108 | Fails with "Indicator not found" exactly when the object is not registered; otherwise removes only that object (size - 1) and leaves all indicator states unchanged |
| Indicators.CreateThenDispose | test/unit/indicator.spec.ts:71-80 | Create then dispose gives back the original registry, and a second dispose of the same object fails |
| Indicators.UpdateKeepsRegistration | src/main/indicator/indicator.ts:99-101 | A setter called through a registered reference is seen through the registry, which keeps the same members |
| DownloadPool.NewPool | src/main/downloadPool.ts:12-16 | The configured concurrency is `size` when it is given and non-zero, else 4; the queue starts empty |
| DownloadPool.Push | src/main/downloadPool.ts:18-20 | The process is appended at the end of the pending queue; nothing else changes |
| DownloadPool.PushAll | src/main/downloadPool.ts:18-20 | Pushing a sequence one by one appends it, in order, to the queue; concurrency and batches are unchanged |
| DownloadPool.DownloadAll | src/main/downloadPool.ts:22-36 | The handed-off batch is exactly the queue at call time, in push order, and runs with concurrency 4; the queue is then empty; earlier batches are kept |
| DownloadPool.LaterPushesWaitForNextDrain | src/main/downloadPool.ts:23-25 | Items pushed after a drain are not in that drain's batch; the next drain hands off exactly them |
| DownloadPool.RunConservesProcesses | src/main/downloadPool.ts:18-28 | For any sequence of push/drain calls on a fresh pool: drained batches plus the queue equal all pushed processes in order (none lost, duplicated or reordered), and every batch has concurrency 4 whatever the constructor size |
| Launch.AssetRequest | src/main/launch.ts:90-104 | A queued asset download uses the asset's download URL, its own hash, algorithm "sha1", and the objects path joined with the asset's path suffix |
| Launch.MissingAssetsFilterMap | src/main/launch.ts:87-106 | What the asset loop queues, entry by entry, equals the index filtered to absent assets and mapped to their downloads, in index order |
| Launch.EnqueuedIffMissing | src/main/launch.ts:87-106 | An asset of the index is queued if and only if `hasAsset` is false for it, so present assets are never queued |
| Launch.RequestsAreSha1 | src/main/launch.ts:93-104 | Every queued download is sha1, carries the hash of some absent asset of the index, and targets that asset's objects path |
| Launch.NoDeduplication | src/main/launch.ts:87-106 | Two index keys with the same absent asset produce two identical queue entries |
| Launch.ResolutionConverges | src/main/asset.ts:12-30 | Once every queued destination exists, and no file was removed, a second resolution pass queues nothing |
| Launch.ResolveProfileAsset | src/main/launch.ts:75-117 | Fails when the asset index cannot be fetched. Otherwise the pool is drained once: its last batch is what was already pending followed by one request per absent asset in iteration order, and the queue is empty |
| Launch.GetCachedVersionPackage | src/main/launch.ts:38-73 | Fails with "Invalid profile minecraft version" for an id without package info. A cached package is returned without fetching and the cache is unchanged. Otherwise the fetched package is returned and cached under the same id; a failed fetch propagates |
| Launch.CachedAfterFirstLoad | src/main/launch.ts:48-56 | After one successful load, loading the same version again is a cache hit that returns the same package, whatever a fetch would return |
| Launch.LaunchProfile | src/main/launch.ts:12-25 | An undefined profile fails before any resolution and an unknown version with the invalid-version error, both with the state unchanged. Once the package loads, the version cache is the one loading produced, even when the asset index then fails with the pool untouched. The launch succeeds exactly when the index can be fetched, and the pool then gains one batch: what was pending followed by one request per absent asset of that package's index |
| Libraries.ClassifierKey | src/main/library.ts:51-52 | The classifier key is `natives[platform]`; a platform missing from `natives` reads as the key "undefined" |
| Libraries.ArtifactsFilePath | src/main/library.ts:22-30 | Fails with "Missing downloads.artifact" exactly when there is no artifact. Otherwise the path is the workspace followed by segments that hold no "/" and join back with "/" to `artifact.path` |
| Libraries.NativesClassifiers | src/main/library.ts:63-86 | Fails with "Missing library.natives" without natives, with the TypeError "Cannot read properties of undefined (reading '<key>')" when classifiers are undefined, and with "Missing classifiers" when the key is absent; otherwise returns exactly that classifier record |
| Libraries.NativesFilePath | src/main/library.ts:42-86 | The natives path lookup and the duplicated classifier lookup fail together with the same error. On success the path is the workspace followed by the split `path` of the very record the classifier lookup returns, and those segments join back to that `path` |
| Libraries.HasArtifactsLibrary | src/main/library.ts:38-40 | Exactly the existence of the artifact file path; fails whenever that path cannot be computed |
| Libraries.HasNativesLibrary | src/main/library.ts:88-93 | Exactly the existence of the natives file path; fails with the classifier lookup's error whenever that lookup fails |
| Libraries.ArtifactPathSegments | src/main/library.ts:28-29 | An artifact path that is a "/"-join of plain names lands under the workspace as exactly those names |
| Paths.Split | src/main/library.ts:28 | `split("/")` yields at least one piece, no piece holds the separator, and joining the pieces with it restores the string |
| Paths.SplitJoinWith | src/main/library.ts:59 | Splitting a join of separator-free pieces gives back the pieces, so split and join are inverse |
| Profiles.NewProfileManager | src/main/profile.ts:25-40 | Fails exactly when no version manager is given; the list starts as the stored list, or empty when there is no profiles file |
| Profiles.StoreProfile | src/main/profile.ts:67-71 | The profiles file afterwards holds the manager's current list |
| Profiles.CreateProfile | src/main/profile.ts:42-56 | Returns `{id, name, versionId}` for the fresh id and appends exactly it; the stored file equals the new list |
| Profiles.DeleteProfile | src/main/profile.ts:58-61 | No profile with that id remains, every other profile stays, nothing new appears, and the new list is stored |
| Profiles.DeleteProfileConcat | src/main/profile.ts:58-61 | Deleting from a concatenated list deletes from each part in place, so the kept profiles keep their order and multiplicity |
| Profiles.DeleteProfileSingle | src/main/profile.ts:58-61 | A single profile is kept exactly when its id differs from the deleted id |
| Profiles.HasProfile | src/main/profile.ts:63-65 | True exactly when some profile in the list has that id |
| Profiles.GetProfile | src/main/profile.ts:73-79 | Returns the first profile with that id; fails with "Profile is undefined with id" exactly when none has it |
| Profiles.CreateThenGet | test/unit/profile.spec.ts:64-72 | After creating with a fresh id, `hasProfile` holds and `getProfile` returns exactly the `{id, name, versionId}` record |
| Profiles.CreateThenDelete | test/unit/profile.spec.ts:74-76 | Deleting a freshly created profile restores the previous list, in order, and `hasProfile` is then false |
| Profiles.GetProfileManager | src/main/profile.ts:88-103 | Fails exactly when the workspace or the version manager is missing. The first call creates the manager from the stored list; later calls return that same manager |
| Profiles.GetProfileManagerOnce | src/main/profile.ts:98-102 | A second call after a successful one returns the same manager and state |
| Profiles.LoadLatestProfile | src/main/profile.ts:108-113 | Creates a "Latest" profile for the latest release id, appended to the global manager's list, which is stored |
| Accounts.NewAccount | src/main/accounts/account.ts:12-16 | A given id is kept; without one, the account gets the generated id |
| Accounts.Serialize | src/main/accounts/account.ts:55-60 | The saved file holds one `{id, name}` record per account, in order |
| Accounts.LoadAccounts | src/main/accounts/account.ts:34-46 | Fails exactly when the accounts file is absent; otherwise returns one account per stored record, in file order, keeping its id and name |
| Accounts.SaveLoadRoundTrip | src/main/accounts/account.ts:40-45 | Loading what was saved gives back the same account list |
| Accounts.SaveAccounts | src/main/accounts/account.ts:55-60 | After saving, loading the file yields the cached list |
| Accounts.GetAccounts | src/main/accounts/account.ts:48-53 | A set cache is returned unchanged without loading. An unset cache is loaded from the file: this succeeds exactly when the file exists, and the loaded list becomes the cache |
| Accounts.CreateAccount | src/main/accounts/account.ts:62-70 | Returns the account's id, appends it, and persists so that loading yields the new list; with the cache unset, `push` throws |
| Accounts.InitAccountFile | src/main/accounts/account.ts:72-77 | With no file: the list becomes empty and is persisted. With a file: nothing changes |
| Accounts.DeleteAccount | src/main/accounts/account.ts:79-84 | Removes every account with that id, keeps all others, and persists; with the cache unset, `filter` throws |
| Accounts.DeleteAccountConcat | src/main/accounts/account.ts:79-84 | Deleting from a concatenated list deletes from each part in place, so the kept accounts keep their order and multiplicity |
| Accounts.DeleteAccountSingle | src/main/accounts/account.ts:79-84 | A single account is kept exactly when its id differs from the deleted id |
| Accounts.CreateThenReload | src/main/accounts/account.ts:62-70 | A fresh process loading the file after `createAccount` sees the same list the creating process holds |
| Accounts.CreateThenDelete | src/main/accounts/account.ts:79-84 | Deleting a freshly created account (unique id) restores the previous list |
| DownloadSlice.Reduce | src/render/main/slices/DownloadSlice.ts:22-41 | Each `set*` action overwrites exactly its own field. `progressDownload` adds one to downloaded and takes one from remaining, preserving their sum; size, flag and message are untouched |
| DownloadSlice.CreateDownloadResets | src/render/main/components/DownloadIndicator/DownloadIndicator.tsx:29-36 | The create-download dispatch sequence leaves the state downloading, with size and remaining equal to `size` and downloaded 0 |
| DownloadSlice.ProgressTimes | src/render/main/slices/DownloadSlice.ts:37-40 | After n progress events downloaded has grown by n and downloaded + remaining is unchanged |
| DownloadSlice.ProgressAfterCreate | src/render/main/components/DownloadIndicator/DownloadIndicator.tsx:29-45 | After an announcement of `size` and n progress events: downloaded = n and downloaded + remaining = downloadSize = size |
| DownloadSlice.RemainingCanGoNegative | src/render/main/slices/DownloadSlice.ts:39 | With no lower-bound guard, one event more than announced drives remaining to -1 |
| RequestAccount.TestPattern | src/render/main/components/RequestAccount/RequestAccount.tsx:27-28 | The anchored `^[a-zA-Z0-9_]{2,16}$` test accepts exactly the names of 2 to 16 ASCII letters, digits or underscores |
| RequestAccount.HandleUsernameCreateClick | src/render/main/components/RequestAccount/RequestAccount.tsx:23-37 | An empty name fails with "Username is undefined" and any other name outside the pattern with "Invalid username…". It returns without throwing exactly for pattern names. The stored accounts gain `{id, name}` when the main process's `createAccount` request resolves with `id`, and stay as they were when it rejects |
| RequestAccount.Utf16Length | src/render/main/components/RequestAccount/RequestAccount.tsx:66 | `username.length` counts UTF-16 code units: between one and two per character, exactly one per character when all are at most U+FFFF, and more than the character count otherwise |
| RequestAccount.Utf16LengthConcat | src/render/main/components/RequestAccount/RequestAccount.tsx:66 | The code-unit count of a concatenation is the sum of the parts' counts |
| RequestAccount.Utf16LengthChar | src/render/main/components/RequestAccount/RequestAccount.tsx:66 | A character counts one code unit, or two when it is above U+FFFF; with the row above this fixes the count of every string |
| RequestAccount.StartDisabled | src/render/main/components/RequestAccount/RequestAccount.tsx:66 | Start is disabled exactly when the name has fewer than 3 UTF-16 code units; the `username === ""` test adds nothing |
| RequestAccount.ClickStart | src/render/main/components/RequestAccount/RequestAccount.tsx:62-67 | The button delivers a click exactly for names of at least 3 UTF-16 code units; a delivered click can fail only with "Invalid username…" |
| RequestAccount.TwoCharacterNamesUnsubmittable | src/render/main/components/RequestAccount/RequestAccount.tsx:27-66 | "ab" passes the validator but cannot be submitted; a pattern name is submittable exactly when it has at least 3 characters |
| RequestAccount.AstralNamesReachTheCheck | src/render/main/components/RequestAccount/RequestAccount.tsx:28-32 | Two characters above U+FFFF make four code units: Start is enabled and the click fails with "Invalid username…" |
| Selector.Includes | src/render/main/components/Selector/Selector.tsx:138-139 | `text.includes(search)` holds exactly when the search text occurs in the text at some position |
| Selector.Matching | src/render/main/components/Selector/Selector.tsx:143-146 | The matching items are items of the list whose text contains the search text, and every such item is among them |
| Selector.Entries | src/render/main/components/Selector/Selector.tsx:137-162 | The single "There are no items" row is shown exactly when items are undefined or none matches. Each item row is disabled exactly when its item's `disabled` is true |
| Selector.EntriesListMatchingItems | src/render/main/components/Selector/Selector.tsx:143-146 | With some match, the rows are exactly the items whose text contains the search text, in original order, each matching item appearing |
| Selector.EmptySearchMatchesAll | src/render/main/components/Selector/Selector.tsx:101 | An empty search text matches every item |
| Selector.HandleVisibleDropdown | src/render/main/components/Selector/Selector.tsx:84-86 | Focus opens the drop-down and changes nothing else |
| Selector.ClickOutside | src/render/main/components/Selector/Selector.tsx:80-82 | A click outside closes the drop-down and changes nothing else |
| Selector.HandleSearchVersion | src/render/main/components/Selector/Selector.tsx:88-95 | Typing sets the search text to the input and clears the selected flag |
| Selector.HandleOnSelect | src/render/main/components/Selector/Selector.tsx:97-105 | Selecting reports the item to the parent once, clears the search, sets the selected flag and closes the drop-down |
| Selector.InputValue | src/render/main/components/Selector/Selector.tsx:112-118 | The input shows the current item's text after a selection, "undefined" after a selection with no current item, and the search text otherwise |
| Selector.ClickEntry | src/render/main/components/Selector/Selector.tsx:37-45 | Clicking the placeholder or a disabled row does nothing; clicking an enabled row selects its item |
| Selector.SelectThenType | src/render/main/components/Selector/Selector.tsx:88-118 | After selecting, the input shows the item once it is current, or "undefined" with none; typing then shows exactly the typed text |
| Selector.ReopenAfterSelectListsAll | src/render/main/components/Selector/Selector.tsx:97-146 | After a selection, refocusing lists every item again, in order |

## Left out

- Electron, IPC and windows (`src/preload.ts`, `src/main/ipc.ts`, `src/main/window.ts`, `src/main/index.ts`, `src/main/app.ts`): transport and window glue with no logic of their own.
- Filesystem I/O: reading and writing JSON, `fse.access` and `existsSync` become plain values and a caller-supplied existence predicate.
- Malformed JSON files are not modelled. `readJsonSync` and `readJSONSync` would throw on them.
- `Accounts.LoadAccounts`: a stored record without an `id` would get a generated id. The model's file records always carry an id, as `saveAccounts` writes them.
- Node's `path.join` normalisation (dropping empty segments, resolving `.` and `..`) is not modelled: a path is the plain sequence of segments.
- `Libraries.ArtifactsFilePath`, `Libraries.NativesFilePath`: the result starts with the workspace only because `..` stays a plain segment. In the source, `path.join` resolves a manifest path such as `../../x` to a location outside the library workspace.
- `Launch.ResolveProfileAsset`: runs as one step on the pool it is given. In the source, other async callers of the global pool can push or drain between its awaits (`src/main/launch.ts:89` and `:116`).
- `Profiles.GetAllProfiles`: returns the list as a value. The source returns the live `this.profileList` array, so a caller holding it sees later creations and deletions.
- `DownloadPool.PendingItems`: returns the queue as a value. The source returns the live `this.processes` array until the next `downloadAll` replaces it.
- `Indicators.GetIndicators`: returns the registry as a value. The source returns the live `Set`, so a caller holding it sees later creations and disposals.
- `Indicators.NewProgress`: progress is a real number, so NaN, which `progress || 0` turns into 0, cannot be passed.
- kratos-core internals are injected functions: package fetch, asset-index fetch, `buildPathSuffix`, `buildAssetDownloadUrl`, `createAttemptDownload`, the workspaces. The `objects/<hh>/<hash>` layout lives inside that library, so it is not stated here.
- Real downloading is not modelled: promise-pool concurrency, hashing, retries, streaming. Neither is the fact that `downloadAll` does not await its pool. Batches are recorded, not run.
- `DownloadPool.NewPool`: records any non-zero size as given, negative sizes included, as `(options && options.size) || 4` does. Whether the promise-pool library would reject such a value is library behaviour outside the repository. `downloadAll` sets concurrency 4 before every run, so the configured value reaches no batch (`DownloadPool.RunConservesProcesses`). NaN is not modelled.
- `writeVersionPackage` is not awaited in the source. The model treats the write as done before the function returns.
- Each awaited `hasAsset` reads the same existence predicate: no file appears while the asset loop runs.
- The workspace check in `getProfileManager` is the parameter `AppState.workspaceReady`. `getLauncherWorkspace` in `src/main/app.ts:22-30` always returns a workspace, so in the running app only the version-manager half of the guard can fail.
- `src/main/runtime.ts` (runtime lookup and process spawning), `src/main/asset.ts:getNativeDirectoryPath` and `src/main/loggingConfig.ts`: child processes and path constants.
- Random id generation and uuid validation are out of the model: ids are parameters.
- Progress percentages and bar widths in the render code are floating-point formatting. Reducer payloads are integers; other JavaScript values are not modelled.
- All other React components, DevKit screens, hooks, `AppSlice.ts` (which also writes to localStorage) and `IndicatorSlice.ts` are presentation or bare assignments.
- Behaviour the code does not contain is not modelled:
  - monotonic indicator ids;
  - progress indicators in the registry;
  - a wrong-kind error;
  - integrity-mismatch handling;
  - batch progress events;
  - fallback from the manifest fetch to a cached manifest;
  - de-duplication of downloads by hash. The code queues duplicates; see `Launch.NoDeduplication`.

=== FILE: account.dfy ===
/** Player accounts (`src/main/accounts/account.ts`): a module-level list,
    loaded once from `accounts.json` and written back after every change. */
module Accounts {
  import opened Wrappers
  import opened Errors
  import opened Seqs

  datatype Account = Account(id: string, name: string)

  /** The JSON object `{id, name}` an account is saved as. */
  datatype StoredAccount = StoredAccount(id: string, name: string)

  /** The module-level `globalAccounts` (`None` until set) and the contents
      of `accounts.json` (`None` when the file is absent). */
  datatype AccountState = AccountState(global: Option<seq<Account>>, file: Option<seq<StoredAccount>>)

  /** `new Account(name, id?)`: keeps a given id, else takes the generated one. */
  function NewAccount(name: string, id: Option<string>, generated: string): (a: Account)
    ensures a.name == name
    ensures id.Some? ==> a.id == id.value
    ensures id.None? ==> a.id == generated
  {
    Account(if id.None? then generated else id.value, name)
  }

  /** What `writeJsonSync` puts in the file for a list of accounts. */
  function Serialize(accounts: seq<Account>): (r: seq<StoredAccount>)
    ensures |r| == |accounts|
    ensures forall i :: 0 <= i < |r| ==> r[i].id == accounts[i].id && r[i].name == accounts[i].name
  {
    Map((a: Account) => StoredAccount(a.id, a.name), accounts)
  }

  /** `loadAccounts()`: fails without a file; otherwise one account per
      stored record, in file order, each keeping its stored id. */
  function LoadAccounts(file: Option<seq<StoredAccount>>): (r: Result<seq<Account>>)
    ensures file.None? <==> r.Err?
    ensures r.Err? ==> r.error == AccountFileMissing
    ensures r.Ok? ==> |r.value| == |file.value|
    ensures r.Ok? ==> forall i :: 0 <= i < |r.value| ==>
      r.value[i].id == file.value[i].id && r.value[i].name == file.value[i].name
  {
    match file
    case None => Err(AccountFileMissing)
    case Some(records) => Ok(Map((s: StoredAccount) => NewAccount(s.name, Some(s.id), ""), records))
  }

  /** Saving a list and loading it back gives the same list. */
  lemma {:induction false} SaveLoadRoundTrip(accounts: seq<Account>)
    ensures LoadAccounts(Some(Serialize(accounts))) == Ok(accounts)
  {
    var loaded := LoadAccounts(Some(Serialize(accounts))).value;
    assert |loaded| == |accounts|;
    forall i | 0 <= i < |accounts| ensures loaded[i] == accounts[i] {
    }
    assert loaded == accounts;
  }

  /** `saveAccounts()`: the file now holds the cached list. */
  function SaveAccounts(st: AccountState): (r: AccountState)
    requires st.global.Some?
    ensures r.global == st.global
    ensures r.file.Some? && LoadAccounts(r.file) == Ok(st.global.value)
  {
    SaveLoadRoundTrip(st.global.value);
    st.(file := Some(Serialize(st.global.value)))
  }

  /** `getAccounts()`: loads only while the cache is unset, and from then on
      returns the cached list. */
  function GetAccounts(st: AccountState): (r: Result<(seq<Account>, AccountState)>)
    ensures st.global.Some? ==> r == Ok((st.global.value, st))
    ensures st.global.None? && st.file.None? ==> r == Err(AccountFileMissing)
    ensures st.global.None? && st.file.Some? ==> r.Ok?
    ensures st.global.None? && r.Ok? ==> && LoadAccounts(st.file) == Ok(r.value.0)
                                         && r.value.1 == st.(global := Some(r.value.0))
  {
    if st.global.Some? then Ok((st.global.value, st))
    else
      match LoadAccounts(st.file)
      case Err(e) => Err(e)
      case Ok(list) => Ok((list, st.(global := Some(list))))
  }

  /** `createAccount(account)`: appends, persists, and returns the account's
      id; with the cache unset `push` hits `undefined`. */
  function CreateAccount(st: AccountState, account: Account): (r: Result<(string, AccountState)>)
    ensures st.global.None? <==> r.Err?
    ensures r.Err? ==> r.error == AccountsUnloaded("push")
    ensures r.Ok? ==> && r.value.0 == account.id
                      && r.value.1.global == Some(st.global.value + [account])
                      && LoadAccounts(r.value.1.file) == Ok(st.global.value + [account])
  {
    if st.global.None? then Err(AccountsUnloaded("push"))
    else Ok((account.id, SaveAccounts(st.(global := Some(st.global.value + [account])))))
  }

  /** `initAccountFile()`: only when the file is absent, sets the list to
      empty and persists it; otherwise nothing changes. */
  function InitAccountFile(st: AccountState): (r: AccountState)
    ensures st.file.Some? ==> r == st
    ensures st.file.None? ==> r.global == Some([]) && LoadAccounts(r.file) == Ok([])
  {
    if st.file.None? then SaveAccounts(st.(global := Some([]))) else st
  }

  /** `deleteAccount(id)`: every account with that id goes, the rest stay in
      order, and the list is persisted. */
  function DeleteAccount(st: AccountState, id: string): (r: Result<AccountState>)
    ensures st.global.None? <==> r.Err?
    ensures r.Err? ==> r.error == AccountsUnloaded("filter")
    ensures r.Ok? ==> && r.value.global.Some?
                      && (forall i :: 0 <= i < |r.value.global.value| ==>
                            r.value.global.value[i] in st.global.value && r.value.global.value[i].id != id)
                      && (forall i :: 0 <= i < |st.global.value| && st.global.value[i].id != id ==>
                            st.global.value[i] in r.value.global.value)
                      && LoadAccounts(r.value.file) == Ok(r.value.global.value)
  {
    if st.global.None? then Err(AccountsUnloaded("filter"))
    else Ok(SaveAccounts(st.(global := Some(Filter((a: Account) => a.id != id, st.global.value)))))
  }

  /** Deleting from a concatenation deletes from each part, in place: with
      `DeleteAccountSingle` this fixes the kept accounts' order and count. */
  lemma DeleteAccountConcat(st: AccountState, xs: seq<Account>, ys: seq<Account>, id: string)
    ensures DeleteAccount(st.(global := Some(xs + ys)), id).value.global.value
         == DeleteAccount(st.(global := Some(xs)), id).value.global.value
          + DeleteAccount(st.(global := Some(ys)), id).value.global.value
  {
    FilterConcat((a: Account) => a.id != id, xs, ys);
  }

  /** A single account is kept exactly when its id differs from the deleted one. */
  lemma DeleteAccountSingle(st: AccountState, a: Account, id: string)
    ensures DeleteAccount(st.(global := Some([a])), id).value.global.value
         == if a.id == id then [] else [a]
  {
  }

  /** Whatever was created is what the next process loads: after
      `createAccount`, a fresh `getAccounts` (cache unset, same file) returns
      the list the creating process holds. */
  lemma CreateThenReload(st: AccountState, account: Account)
    requires st.global.Some?
    ensures var created := CreateAccount(st, account).value.1;
      GetAccounts(created.(global := None)) == Ok((st.global.value + [account], created.(global := Some(st.global.value + [account]))))
  {
  }

  /** Deleting a freshly created account restores the list it was added to. */
  lemma {:induction false} CreateThenDelete(st: AccountState, account: Account)
    requires st.global.Some?
    requires forall i :: 0 <= i < |st.global.value| ==> st.global.value[i].id != account.id
    ensures var created := CreateAccount(st, account).value.1;
      DeleteAccount(created, account.id).value.global == st.global
  {
    var keep := (a: Account) => a.id != account.id;
    FilterConcat(keep, st.global.value, [account]);
    FilterKeepsAll(keep, st.global.value);
    assert Filter(keep, [account]) == [];
    var created := CreateAccount(st, account).value.1;
    assert created.global.value == st.global.value + [account];
    assert DeleteAccount(created, account.id).value.global.value == Filter(keep, st.global.value + [account]);
    assert Filter(keep, st.global.value + [account]) == st.global.value + [];
    assert st.global.value + [] == st.global.value;
  }
}

=== FILE: download_pool.dfy ===
/** The download pool of `src/main/downloadPool.ts`: a queue of pending
    download processes that `downloadAll` snapshots, clears and hands to a
    concurrency-bounded promise pool. Only the queue and the sequence of
    handed-off batches are modelled; running the batch is not. */
module DownloadPool {
  import opened Wrappers

  /** The constructor's fallback concurrency, and the one `downloadAll` always uses. */
  const DefaultConcurrency: int := 4

  /** One `downloadAll` call: the processes handed to the promise pool and
      the concurrency they run with. */
  datatype Batch<P> = Batch(items: seq<P>, concurrency: int)

  /** `concurrency` is what the constructor configured, `processes` the
      pending queue, `handedOff` every batch drained so far, oldest first. */
  datatype Pool<P> = Pool(concurrency: int, processes: seq<P>, handedOff: seq<Batch<P>>)

  /** `new DownloadPool(options?)`: `options.size` when it is truthy, else 4.
      `size` flattens `options?.size`; NaN is not modelled. */
  function NewPool<P>(size: Option<int>): (r: Pool<P>)
    ensures r.processes == [] && r.handedOff == []
    ensures size.Some? && size.value != 0 ==> r.concurrency == size.value
    ensures size.None? || size.value == 0 ==> r.concurrency == 4
  {
    var c := if size.Some? && size.value != 0 then size.value else DefaultConcurrency;
    Pool(c, [], [])
  }

  /** `push(process)`: appended at the end of the queue, nothing else changes. */
  function Push<P>(pool: Pool<P>, process: P): (r: Pool<P>)
    ensures r.processes == pool.processes + [process]
    ensures |r.processes| == |pool.processes| + 1 && r.processes[|pool.processes|] == process
    ensures r.concurrency == pool.concurrency && r.handedOff == pool.handedOff
  {
    pool.(processes := pool.processes + [process])
  }

  /** `getPendingItems()`. */
  function PendingItems<P>(pool: Pool<P>): seq<P>
  {
    pool.processes
  }

  /** `downloadAll()`: the queue as it is now becomes one new batch, run with
      concurrency 4 whatever the constructor was given, and the queue is
      left empty. */
  function DownloadAll<P>(pool: Pool<P>): (r: Pool<P>)
    ensures PendingItems(r) == []
    ensures |r.handedOff| == |pool.handedOff| + 1
    ensures r.handedOff[..|pool.handedOff|] == pool.handedOff
    ensures r.handedOff[|pool.handedOff|].items == pool.processes
    ensures r.handedOff[|pool.handedOff|].concurrency == 4
    ensures r.concurrency == pool.concurrency
  {
    var stack := pool.processes;
    Pool(pool.concurrency, [], pool.handedOff + [Batch(stack, DefaultConcurrency)])
  }

  /** `push` of each element of `xs` in turn. */
  function PushAll<P>(pool: Pool<P>, xs: seq<P>): (r: Pool<P>)
    ensures r.processes == pool.processes + xs
    ensures r.concurrency == pool.concurrency && r.handedOff == pool.handedOff
    decreases |xs|
  {
    if |xs| == 0 then pool
    else
      assert pool.processes + xs == pool.processes + [xs[0]] + xs[1..];
      PushAll(Push(pool, xs[0]), xs[1..])
  }

  /** The calls a client makes on a pool. */
  datatype Op<P> = PushOp(process: P) | DownloadAllOp

  function Apply<P>(pool: Pool<P>, op: Op<P>): Pool<P>
  {
    match op
    case PushOp(x) => Push(pool, x)
    case DownloadAllOp => DownloadAll(pool)
  }

  /** The pool after the calls `ops`, made in order. */
  function Run<P>(pool: Pool<P>, ops: seq<Op<P>>): Pool<P>
  {
    if |ops| == 0 then pool
    else Apply(Run(pool, ops[..|ops| - 1]), ops[|ops| - 1])
  }

  /** Every process pushed by `ops`, in push order. */
  function Pushed<P>(ops: seq<Op<P>>): seq<P>
  {
    if |ops| == 0 then []
    else
      var last := ops[|ops| - 1];
      Pushed(ops[..|ops| - 1]) + (if last.PushOp? then [last.process] else [])
  }

  /** The items of all batches, oldest batch first. */
  function Flatten<P>(batches: seq<Batch<P>>): seq<P>
  {
    if |batches| == 0 then []
    else Flatten(batches[..|batches| - 1]) + batches[|batches| - 1].items
  }

  /** Items pushed after a `downloadAll` are not part of its batch: that
      batch stays as it was, and the next drain hands off exactly them. */
  lemma LaterPushesWaitForNextDrain<P>(pool: Pool<P>, xs: seq<P>)
    ensures var drained := DownloadAll(pool);
      var later := DownloadAll(PushAll(drained, xs));
      && later.handedOff[..|drained.handedOff|] == drained.handedOff
      && drained.handedOff[|pool.handedOff|].items == pool.processes
      && later.handedOff[|drained.handedOff|].items == xs
  {
  }

  /** Every batch runs with concurrency 4. */
  predicate AllAtFour<P>(batches: seq<Batch<P>>)
  {
    forall i :: 0 <= i < |batches| ==> batches[i].concurrency == 4
  }

  /** Flattening one more batch appends its items. */
  lemma FlattenSnoc<P>(batches: seq<Batch<P>>, b: Batch<P>)
    ensures Flatten(batches + [b]) == Flatten(batches) + b.items
  {
    assert (batches + [b])[..|batches|] == batches;
  }

  /** The last call of a run is applied to the run of the earlier calls, and
      pushes what it pushes after them. */
  lemma RunSnoc<P>(pool: Pool<P>, ops: seq<Op<P>>)
    requires |ops| > 0
    ensures Run(pool, ops) == Apply(Run(pool, ops[..|ops| - 1]), ops[|ops| - 1])
    ensures Pushed(ops) == Pushed(ops[..|ops| - 1])
                         + (if ops[|ops| - 1].PushOp? then [ops[|ops| - 1].process] else [])
  {
  }

  /** One call appends what it pushes to the drained-plus-pending items and
      only ever adds batches of concurrency 4. */
  lemma ApplyConserves<P>(pool: Pool<P>, op: Op<P>)
    requires AllAtFour(pool.handedOff)
    ensures var after := Apply(pool, op);
      && Flatten(after.handedOff) + after.processes
         == Flatten(pool.handedOff) + pool.processes + (if op.PushOp? then [op.process] else [])
      && AllAtFour(after.handedOff)
  {
    if op.DownloadAllOp? {
      FlattenSnoc(pool.handedOff, Batch(pool.processes, DefaultConcurrency));
    }
  }

  /** Whatever calls a client makes on a fresh pool: no process is lost,
      duplicated or reordered (the drained batches followed by the queue are
      exactly the pushed processes), and every batch runs with concurrency 4
      whatever size the constructor was given. */
  lemma {:induction false} RunConservesProcesses<P>(size: Option<int>, ops: seq<Op<P>>)
    ensures var p := Run(NewPool(size), ops);
      && Flatten(p.handedOff) + p.processes == Pushed(ops)
      && AllAtFour(p.handedOff)
  {
    if |ops| > 0 {
      var prefix := ops[..|ops| - 1];
      RunConservesProcesses(size, prefix);
      RunSnoc(NewPool<P>(size), ops);
      ApplyConserves(Run(NewPool<P>(size), prefix), ops[|ops| - 1]);
    }
  }
}

=== FILE: download_slice.dfy ===
/** The renderer's download-progress state (`src/render/main/slices/DownloadSlice.ts`)
    and the reset the download indicator performs when the main process
    announces a new download. */
module DownloadSlice {
  import opened Wrappers

  datatype DownloadState = DownloadState(
    isDownloading: bool,
    downloadSize: int,
    remainingItemCount: int,
    downloadedItemCount: int,
    downloadMessage: Option<string>)

  /** `initialState`: not downloading, every count 0, no message. */
  const InitialState: DownloadState := DownloadState(false, 0, 0, 0, None)

  /** The slice's actions with their payloads. */
  datatype Action =
    | SetDownloadingState(downloading: bool)
    | SetDownloadSize(size: int)
    | SetRemainingItemCount(remaining: int)
    | SetDownloadedItemCount(downloaded: int)
    | ProgressDownload

  /** The slice reducer: each `set*` overwrites its own field only;
      `progressDownload` moves one item from remaining to downloaded. */
  function Reduce(s: DownloadState, a: Action): (r: DownloadState)
    ensures r.downloadMessage == s.downloadMessage
    ensures a.SetDownloadingState? ==> r == s.(isDownloading := a.downloading)
    ensures a.SetDownloadSize? ==> r == s.(downloadSize := a.size)
    ensures a.SetRemainingItemCount? ==> r == s.(remainingItemCount := a.remaining)
    ensures a.SetDownloadedItemCount? ==> r == s.(downloadedItemCount := a.downloaded)
    ensures a.ProgressDownload? ==> && r.downloadedItemCount == s.downloadedItemCount + 1
                                    && r.remainingItemCount == s.remainingItemCount - 1
                                    && r.downloadSize == s.downloadSize
                                    && r.isDownloading == s.isDownloading
    ensures a.ProgressDownload? ==>
      r.downloadedItemCount + r.remainingItemCount == s.downloadedItemCount + s.remainingItemCount
  {
    match a
    case SetDownloadingState(b) => s.(isDownloading := b)
    case SetDownloadSize(n) => s.(downloadSize := n)
    case SetRemainingItemCount(n) => s.(remainingItemCount := n)
    case SetDownloadedItemCount(n) => s.(downloadedItemCount := n)
    case ProgressDownload =>
      s.(downloadedItemCount := s.downloadedItemCount + 1,
         remainingItemCount := s.remainingItemCount - 1)
  }

  /** The state after dispatching `actions` in order. */
  function DispatchAll(s: DownloadState, actions: seq<Action>): DownloadState
    decreases |actions|
  {
    if |actions| == 0 then s else DispatchAll(Reduce(s, actions[0]), actions[1..])
  }

  /** The actions dispatched when a download of `size` items is announced. */
  function CreateDownloadActions(size: int): seq<Action>
  {
    [SetDownloadingState(true), SetRemainingItemCount(size), SetDownloadSize(size), SetDownloadedItemCount(0)]
  }

  /** A download announcement: downloading, `size` items to go of `size`,
      none done yet; the message is left as it was. */
  lemma CreateDownloadResets(s: DownloadState, size: int)
    ensures DispatchAll(s, CreateDownloadActions(size)) == DownloadState(true, size, size, 0, s.downloadMessage)
  {
    var acts := CreateDownloadActions(size);
    var s1 := Reduce(s, acts[0]);
    var s2 := Reduce(s1, acts[1]);
    var s3 := Reduce(s2, acts[2]);
    var s4 := Reduce(s3, acts[3]);
    assert acts[1..][1..][1..][1..] == [];
    assert DispatchAll(s3, acts[3..]) == s4;
    assert DispatchAll(s2, acts[2..]) == s4;
    assert DispatchAll(s1, acts[1..]) == s4;
  }

  /** `n` progress events in a row. */
  function ProgressTimes(s: DownloadState, n: nat): (r: DownloadState)
    ensures r.downloadedItemCount == s.downloadedItemCount + n
    ensures r.downloadedItemCount + r.remainingItemCount == s.downloadedItemCount + s.remainingItemCount
    ensures r.downloadSize == s.downloadSize && r.isDownloading == s.isDownloading
  {
    if n == 0 then s else Reduce(ProgressTimes(s, n - 1), ProgressDownload)
  }

  /** After an announcement of `size` items and `n` progress events,
      `n` items are downloaded and downloaded plus remaining is the size. */
  lemma ProgressAfterCreate(s: DownloadState, size: int, n: nat)
    ensures var t := ProgressTimes(DispatchAll(s, CreateDownloadActions(size)), n);
      && t.isDownloading
      && t.downloadedItemCount == n
      && t.downloadedItemCount + t.remainingItemCount == t.downloadSize == size
  {
    CreateDownloadResets(s, size);
  }

  /** Nothing bounds the remaining count below: one event more than
      announced drives it negative. */
  lemma RemainingCanGoNegative(s: DownloadState, size: nat)
    ensures ProgressTimes(DispatchAll(s, CreateDownloadActions(size)), size + 1).remainingItemCount == -1
  {
    ProgressAfterCreate(s, size, size + 1);
  }
}

=== FILE: errors.dfy ===
/** The exceptions the launcher throws, one constructor per distinct `throw`
    site (or runtime TypeError) of the modelled code. */
module Errors {

  datatype Error =
    | IndicatorNotFound
    | ProfileUndefined
    | InvalidVersion(versionId: string)
    /** A promise of the kratos-core library (package or asset-index fetch)
        rejected; its reason is that library's and is not modelled. */
    | NetworkFailure
    | MissingArtifact(library: string)
    | MissingNatives(library: string)
    /** `library.downloads.classifiers` is undefined, so indexing it with the
        classifier key is a TypeError. */
    | ClassifiersUndefined(classifier: string)
    | MissingClassifiers(classifier: string, library: string)
    | VersionManagerUndefined
    | AppNotReady
    | ProfileNotFound(id: string)
    | AccountFileMissing
    /** The account cache was never loaded, so calling `operation` on it is a TypeError. */
    | AccountsUnloaded(operation: string)
    | UsernameUndefined
    | InvalidUsername

  /** The text of the `Error` the source throws. For `NetworkFailure` the
      text is kratos-core's, so a fixed label stands in for it. */
  function Message(e: Error): string
  {
    match e
    case IndicatorNotFound => "Indicator not found"
    case ProfileUndefined => "Profile cannot be undefined"
    case InvalidVersion(v) => "Invalid profile minecraft version " + v
    case NetworkFailure => "kratos-core request rejected"
    case MissingArtifact(n) => "Missing downloads.artifact for library " + n
    case MissingNatives(n) => "Missing library.natives for library name " + n
    case ClassifiersUndefined(c) => "Cannot read properties of undefined (reading '" + c + "')"
    case MissingClassifiers(c, n) => "Missing classifiers " + c + " for library name " + n
    case VersionManagerUndefined => "Version Manager is not provided or undefined"
    case AppNotReady => "Launcher profile cannot be initialized when app is not ready"
    case ProfileNotFound(id) => "Profile is undefined with id" + id
    case AccountFileMissing => "Invalid account file or not saved"
    case AccountsUnloaded(op) => "Cannot read properties of undefined (reading '" + op + "')"
    case UsernameUndefined => "Username is undefined"
    case InvalidUsername =>
      "Invalid username. The username must be in the min length of 2 and only contains underscore(_)."
  }
}

=== FILE: indicator.dfy ===
/** Text and progress indicators, and the process-wide set of registered
    indicators (`src/main/indicator/indicator.ts`).

    Indicators are objects: the registry holds references, and a change made
    through a reference is seen through the registry. The model therefore
    keeps a heap from references to indicator states next to the registry. */
module Indicators {
  import opened Wrappers
  import opened Errors

  /** The identity of an allocated indicator object. */
  type Ref = nat

  /** A `TextIndicator` or a `ProgressIndicator` (the subclass adds `progress`). */
  datatype Indicator =
    | Text(visible: bool, text: string, subText: string)
    | Progress(visible: bool, text: string, subText: string, progress: real)

  /** `new TextIndicator(text?, subText?, visible?)`: absent arguments default
      to the empty string and to hidden. */
  function NewText(text: Option<string>, subText: Option<string>, visible: Option<bool>): (r: Indicator)
    ensures r.Text?
    ensures r.visible <==> visible == Some(true)
    ensures text.None? ==> r.text == ""
    ensures text.Some? ==> r.text == text.value
    ensures subText.None? ==> r.subText == ""
    ensures subText.Some? ==> r.subText == subText.value
  {
    Text(visible.OrElse(false), text.OrElse(""), subText.OrElse(""))
  }

  /** `new ProgressIndicator(progress?, text?, subText?, visible?)`: an absent
      progress defaults to 0, the rest as for a text indicator. */
  function NewProgress(progress: Option<real>, text: Option<string>, subText: Option<string>,
                       visible: Option<bool>): (r: Indicator)
    ensures r.Progress?
    ensures r.visible <==> visible == Some(true)
    ensures progress.None? ==> r.progress == 0.0
    ensures progress.Some? ==> r.progress == progress.value
    ensures text.None? ==> r.text == ""
    ensures subText.None? ==> r.subText == ""
    ensures text.Some? ==> r.text == text.value
    ensures subText.Some? ==> r.subText == subText.value
  {
    Progress(visible.OrElse(false), text.OrElse(""), subText.OrElse(""), progress.OrElse(0.0))
  }

  /** Two indicators that differ at most in visibility. */
  predicate SameContent(a: Indicator, b: Indicator)
  {
    && a.Text? == b.Text?
    && a.text == b.text
    && a.subText == b.subText
    && (a.Progress? ==> a.progress == b.progress)
  }

  function SetVisible(i: Indicator, visible: bool): (r: Indicator)
    ensures r.visible == visible
    ensures SameContent(r, i)
  {
    i.(visible := visible)
  }

  function Show(i: Indicator): (r: Indicator)
    ensures r.visible
    ensures SameContent(r, i)
  {
    SetVisible(i, true)
  }

  function Hide(i: Indicator): (r: Indicator)
    ensures !r.visible
    ensures SameContent(r, i)
  {
    SetVisible(i, false)
  }

  /** Showing or hiding twice is the same as doing it once, and the last of
      a sequence of toggles decides visibility. */
  lemma ToggleIdempotent(i: Indicator)
    ensures Show(Show(i)) == Show(i)
    ensures Hide(Hide(i)) == Hide(i)
    ensures Show(Hide(i)) == Show(i)
    ensures Hide(Show(i)) == Hide(i)
  {
  }

  function SetText(i: Indicator, text: string): (r: Indicator)
    ensures r.text == text
    ensures r.Text? == i.Text? && r.visible == i.visible && r.subText == i.subText
    ensures r.Progress? ==> r.progress == i.progress
  {
    i.(text := text)
  }

  function SetSubText(i: Indicator, subText: string): (r: Indicator)
    ensures r.subText == subText
    ensures r.Text? == i.Text? && r.visible == i.visible && r.text == i.text
    ensures r.Progress? ==> r.progress == i.progress
  {
    i.(subText := subText)
  }

  /** `setProgress` exists only on the `ProgressIndicator` class. */
  function SetProgress(i: Indicator, progress: real): (r: Indicator)
    requires i.Progress?
    ensures r.Progress? && r.progress == progress
    ensures r.visible == i.visible && r.text == i.text && r.subText == i.subText
  {
    i.(progress := progress)
  }

  /** All allocated indicator objects, and the references the registry set holds. */
  datatype World = World(heap: map<Ref, Indicator>, registry: set<Ref>) {
    /** The registry only holds allocated objects. */
    predicate Valid()
    {
      registry <= heap.Keys
    }
  }

  /** `new TextIndicator(...)` or `new ProgressIndicator(...)` outside the
      registry: a fresh object `r` holding `i`. */
  function Allocate(w: World, r: Ref, i: Indicator): (w': World)
    requires w.Valid() && r !in w.heap
    ensures w'.Valid()
    ensures w'.registry == w.registry && r in w'.heap && w'.heap[r] == i
    ensures w'.heap.Keys == w.heap.Keys + {r}
    ensures forall q :: q in w.heap ==> q in w'.heap && w'.heap[q] == w.heap[q]
  {
    w.(heap := w.heap[r := i])
  }

  /** A setter called through a reference: the object `r` now holds `i`. */
  function Update(w: World, r: Ref, i: Indicator): (w': World)
    requires w.Valid() && r in w.heap
    ensures w'.Valid()
    ensures w'.registry == w.registry && w'.heap.Keys == w.heap.Keys && w'.heap[r] == i
    ensures forall q :: q in w.heap && q != r ==> w'.heap[q] == w.heap[q]
  {
    w.(heap := w.heap[r := i])
  }

  /** `indicator.createTextIndicator(text, subText?)`, the new object being `r`. */
  function CreateTextIndicator(w: World, r: Ref, text: string, subText: Option<string>): (res: (World, Ref))
    requires w.Valid() && r !in w.heap
    ensures var (w', q) := res;
      && q == r
      && w'.Valid()
      && w'.registry == w.registry + {r}
      && w'.heap.Keys == w.heap.Keys + {r}
      && |w'.registry| == |w.registry| + 1
      && w'.heap[r] == NewText(Some(text), subText, Some(true))
      && w'.heap[r].visible && w'.heap[r].text == text
      && (forall q :: q in w.heap ==> q in w'.heap && w'.heap[q] == w.heap[q])
  {
    var i := NewText(Some(text), subText, Some(true));
    (World(w.heap[r := i], w.registry + {r}), r)
  }

  /** `indicator.getIndicators()`: the registered objects. */
  function GetIndicators(w: World): (s: set<Ref>)
    requires w.Valid()
    ensures forall q :: q in s ==> q in w.heap
    ensures s == w.registry
  {
    w.registry
  }

  /** `indicator.disposeIndicator(r)`: fails with "Indicator not found" unless
      `r` is registered; otherwise removes exactly `r` from the registry. */
  function DisposeIndicator(w: World, r: Ref): (res: Result<World>)
    requires w.Valid()
    ensures r !in w.registry <==> res.Err?
    ensures res.Err? ==> res.error == IndicatorNotFound
    ensures res.Ok? ==> && res.value.Valid()
                        && res.value.registry == w.registry - {r}
                        && |res.value.registry| == |w.registry| - 1
                        && res.value.heap == w.heap
  {
    if r !in w.registry then Err(IndicatorNotFound)
    else Ok(w.(registry := w.registry - {r}))
  }

  /** Creating and then disposing an indicator gives back the registry it
      started with; a second dispose of the same object fails. */
  lemma CreateThenDispose(w: World, r: Ref, text: string, subText: Option<string>)
    requires w.Valid() && r !in w.heap
    ensures var w1 := CreateTextIndicator(w, r, text, subText).0;
      && DisposeIndicator(w1, r).Ok?
      && DisposeIndicator(w1, r).value.registry == w.registry
      && DisposeIndicator(DisposeIndicator(w1, r).value, r) == Err(IndicatorNotFound)
  {
    assert r !in w.registry;
  }

  /** A setter applied to a registered indicator leaves the registry as it is:
      the registry's view of `r` is the updated object. */
  lemma UpdateKeepsRegistration(w: World, r: Ref, text: string)
    requires w.Valid() && r in w.registry
    ensures var w' := Update(w, r, SetText(w.heap[r], text));
      && r in GetIndicators(w')
      && w'.heap[r].text == text
      && GetIndicators(w') == GetIndicators(w)
  {
  }
}

=== FILE: kratos.dfy ===
/** The records the launcher receives from the kratos-core library, and the
    library's services the launcher calls. Their implementations are not part
    of this model: each service is a function passed in by the caller. */
module Kratos {
  import opened Wrappers

  /** One entry of the version manifest: where a version's package lives. */
  datatype PackageInfo = PackageInfo(id: string, url: string, sha1: string)

  /** A per-version package descriptor, as far as the launcher looks into it. */
  datatype VersionPackage = VersionPackage(id: string, mainClass: string, assetIndexId: string)

  /** One object of an asset index: content hash and size in bytes. */
  datatype AssetMetadata = AssetMetadata(hash: string, size: int)

  /** A key of the asset index's `objects` record with its metadata. */
  datatype AssetEntry = AssetEntry(key: string, metadata: AssetMetadata)

  /** The parsed version manifest: package info by version id, and the id of
      the latest release. */
  datatype VersionManager = VersionManager(packageInfo: map<string, PackageInfo>, latestReleaseId: string)

  /** The kratos-core calls whose behaviour is outside this model. A fetch
      that rejects is `None`. `assetIndex` lists the index's objects in the
      order a `for ... in` loop visits them. */
  datatype Services = Services(
    fetchPackage: PackageInfo -> Option<VersionPackage>,
    assetIndex: VersionPackage -> Option<seq<AssetEntry>>,
    pathSuffix: AssetMetadata -> string,
    assetUrl: AssetMetadata -> string)
}

=== FILE: launch.dfy ===
/** Launching a profile (`src/main/launch.ts`): loading the version package
    from the local cache or fetching and caching it, then queueing a download
    for every asset of the package's asset index that is not on disk, and
    draining the download pool. */
module Launch {
  import opened Wrappers
  import opened Errors
  import opened Seqs
  import opened Paths
  import opened Kratos
  import opened DownloadPool
  import opened Profiles

  /** A download created by `download.createAttemptDownload`. */
  datatype DownloadRequest = DownloadRequest(url: string, destination: Path, hash: string, algorithm: string)

  /** The asset workspace: its objects directory and which files exist in it. */
  datatype AssetWorkspace = AssetWorkspace(objectsPath: Path, fileExists: Path -> bool)

  /** Where an asset lives: the objects directory joined with the asset's path suffix. */
  function AssetPath(k: Services, ws: AssetWorkspace, m: AssetMetadata): Path
  {
    Join(ws.objectsPath, [k.pathSuffix(m)])
  }

  /** `hasAsset(metadata)` of `src/main/asset.ts`: the asset's file exists. */
  predicate HasAsset(k: Services, ws: AssetWorkspace, m: AssetMetadata)
  {
    ws.fileExists(AssetPath(k, ws, m))
  }

  /** The download queued for a missing asset. */
  function AssetRequest(k: Services, ws: AssetWorkspace, m: AssetMetadata): (r: DownloadRequest)
    ensures r.url == k.assetUrl(m)
    ensures r.algorithm == "sha1" && r.hash == m.hash
    ensures r.destination == ws.objectsPath + [k.pathSuffix(m)]
  {
    DownloadRequest(k.assetUrl(m), AssetPath(k, ws, m), m.hash, "sha1")
  }

  /** What the asset loop has queued after visiting `entries`: one request
      per entry whose asset is absent, in iteration order. */
  function MissingAssets(k: Services, ws: AssetWorkspace, entries: seq<AssetEntry>): seq<DownloadRequest>
  {
    if |entries| == 0 then []
    else
      var last := entries[|entries| - 1];
      MissingAssets(k, ws, entries[..|entries| - 1])
        + (if HasAsset(k, ws, last.metadata) then [] else [AssetRequest(k, ws, last.metadata)])
  }

  /** The asset loop's filter: the entry's asset is not on disk. */
  function Absent(k: Services, ws: AssetWorkspace): AssetEntry -> bool
  {
    (e: AssetEntry) => !HasAsset(k, ws, e.metadata)
  }

  /** The asset loop's mapping from an entry to its download. */
  function ToRequest(k: Services, ws: AssetWorkspace): AssetEntry -> DownloadRequest
  {
    (e: AssetEntry) => AssetRequest(k, ws, e.metadata)
  }

  /** The loop's queue is the filter of the index by absence, mapped to requests. */
  lemma {:induction false} MissingAssetsFilterMap(k: Services, ws: AssetWorkspace, entries: seq<AssetEntry>)
    ensures MissingAssets(k, ws, entries) == Map(ToRequest(k, ws), Filter(Absent(k, ws), entries))
  {
    if |entries| > 0 {
      var n := |entries| - 1;
      var last := entries[n];
      MissingAssetsFilterMap(k, ws, entries[..n]);
      assert entries == entries[..n] + [last];
      MapFilterSnoc(ToRequest(k, ws), Absent(k, ws), entries[..n], last);
    }
  }

  /** An asset is queued if and only if it is absent: the direction "present
      implies not queued" holds because a request's destination is the very
      path whose existence `hasAsset` checks. */
  lemma EnqueuedIffMissing(k: Services, ws: AssetWorkspace, entries: seq<AssetEntry>)
    ensures forall i :: 0 <= i < |entries| ==>
      (AssetRequest(k, ws, entries[i].metadata) in MissingAssets(k, ws, entries)
       <==> !HasAsset(k, ws, entries[i].metadata))
  {
    MissingAssetsFilterMap(k, ws, entries);
    var kept := Filter(Absent(k, ws), entries);
    forall i | 0 <= i < |entries|
      ensures AssetRequest(k, ws, entries[i].metadata) in MissingAssets(k, ws, entries)
              <==> !HasAsset(k, ws, entries[i].metadata)
    {
      var m := entries[i].metadata;
      if !HasAsset(k, ws, m) {
        assert entries[i] in kept;
        var j :| 0 <= j < |kept| && kept[j] == entries[i];
        assert MissingAssets(k, ws, entries)[j] == AssetRequest(k, ws, m);
      }
    }
  }

  /** Every queued download uses algorithm "sha1", the hash of an absent
      asset of the index, and that asset's objects path as destination. */
  lemma RequestsAreSha1(k: Services, ws: AssetWorkspace, entries: seq<AssetEntry>)
    ensures forall x :: x in MissingAssets(k, ws, entries) ==>
      && x.algorithm == "sha1"
      && exists e :: && e in entries && !HasAsset(k, ws, e.metadata)
                     && x.hash == e.metadata.hash
                     && x.destination == Join(ws.objectsPath, [k.pathSuffix(e.metadata)])
  {
    MissingAssetsFilterMap(k, ws, entries);
    var kept := Filter(Absent(k, ws), entries);
    forall x | x in MissingAssets(k, ws, entries)
      ensures x.algorithm == "sha1"
      ensures exists e :: && e in entries && !HasAsset(k, ws, e.metadata)
                          && x.hash == e.metadata.hash
                          && x.destination == Join(ws.objectsPath, [k.pathSuffix(e.metadata)])
    {
      var j :| 0 <= j < |kept| && MissingAssets(k, ws, entries)[j] == x;
      assert kept[j] in entries;
    }
  }

  /** No de-duplication: two index keys with the same absent asset give two
      identical downloads. */
  lemma NoDeduplication(k: Services, ws: AssetWorkspace, key1: string, key2: string, m: AssetMetadata)
    requires !HasAsset(k, ws, m)
    ensures var q := MissingAssets(k, ws, [AssetEntry(key1, m), AssetEntry(key2, m)]);
      |q| == 2 && q[0] == q[1] == AssetRequest(k, ws, m)
  {
    var es := [AssetEntry(key1, m), AssetEntry(key2, m)];
    MissingAssetsFilterMap(k, ws, es);
    assert es[1..][1..] == [];
    assert Filter(Absent(k, ws), es) == es;
  }

  /** Once every queued download has landed (and nothing was deleted), a
      second resolution pass finds nothing missing. */
  lemma ResolutionConverges(k: Services, ws: AssetWorkspace, ws': AssetWorkspace, entries: seq<AssetEntry>)
    requires ws'.objectsPath == ws.objectsPath
    requires forall p :: ws.fileExists(p) ==> ws'.fileExists(p)
    requires forall x :: x in MissingAssets(k, ws, entries) ==> ws'.fileExists(x.destination)
    ensures MissingAssets(k, ws', entries) == []
  {
    EnqueuedIffMissing(k, ws, entries);
    forall i | 0 <= i < |entries| ensures !Absent(k, ws')(entries[i]) {
      var m := entries[i].metadata;
      if !HasAsset(k, ws, m) {
        assert AssetRequest(k, ws, m) in MissingAssets(k, ws, entries);
      }
    }
    FilterKeepsNone(Absent(k, ws'), entries);
    MissingAssetsFilterMap(k, ws', entries);
  }

  /** `resolveProfileAsset(packageManager, profile)`: fetches the asset index,
      pushes one download per absent asset in iteration order onto whatever
      the pool already holds, then drains the pool. */
  method ResolveProfileAsset(k: Services, ws: AssetWorkspace, pkg: VersionPackage, pool: Pool<DownloadRequest>)
    returns (r: Result<Pool<DownloadRequest>>)
    ensures k.assetIndex(pkg).None? <==> r.Err?
    ensures r.Err? ==> r.error == NetworkFailure
    ensures r.Ok? ==> && r.value.processes == []
                      && r.value.concurrency == pool.concurrency
                      && r.value.handedOff
                         == pool.handedOff + [Batch(pool.processes + MissingAssets(k, ws, k.assetIndex(pkg).value), 4)]
  {
    var index := k.assetIndex(pkg);
    if index.None? {
      return Err(NetworkFailure);
    }
    var entries := index.value;
    var p := pool;
    var i := 0;
    while i < |entries|
      invariant 0 <= i <= |entries|
      invariant p.processes == pool.processes + MissingAssets(k, ws, entries[..i])
      invariant p.concurrency == pool.concurrency && p.handedOff == pool.handedOff
    {
      var e := entries[i];
      assert entries[..i + 1][..i] == entries[..i];
      if !HasAsset(k, ws, e.metadata) {
        p := Push(p, AssetRequest(k, ws, e.metadata));
      }
      i := i + 1;
    }
    assert entries[..i] == entries;
    p := DownloadAll(p);
    return Ok(p);
  }

  /** The version-package cache (`versions/<id>/<id>.json`) and the download pool. */
  datatype LauncherState = LauncherState(versionCache: map<string, VersionPackage>, pool: Pool<DownloadRequest>)

  /** `getCachedVersionPackageManager(versionId)`: fails for a version the
      manifest does not list; returns the cached package without fetching
      when there is one; otherwise fetches it and writes it to the cache
      under the same id. */
  function GetCachedVersionPackage(k: Services, vm: VersionManager, cache: map<string, VersionPackage>, versionId: string)
    : (r: Result<(VersionPackage, map<string, VersionPackage>)>)
    ensures versionId !in vm.packageInfo ==> r == Err(InvalidVersion(versionId))
    ensures versionId in vm.packageInfo && versionId in cache ==> r == Ok((cache[versionId], cache))
    ensures versionId in vm.packageInfo && versionId !in cache ==>
      match k.fetchPackage(vm.packageInfo[versionId])
      case None => r == Err(NetworkFailure)
      case Some(fetched) => r.Ok? && r.value.0 == fetched && r.value.1 == cache[versionId := fetched]
  {
    if versionId !in vm.packageInfo then Err(InvalidVersion(versionId))
    else if versionId in cache then Ok((cache[versionId], cache))
    else
      match k.fetchPackage(vm.packageInfo[versionId])
      case None => Err(NetworkFailure)
      case Some(fetched) => Ok((fetched, cache[versionId := fetched]))
  }

  /** Loading a version twice fetches at most once: after a successful call
      the package is cached, so the next call returns it with the cache
      unchanged, whatever a fetch would now return. */
  lemma CachedAfterFirstLoad(k: Services, k': Services, vm: VersionManager, cache: map<string, VersionPackage>, versionId: string)
    requires GetCachedVersionPackage(k, vm, cache, versionId).Ok?
    ensures var (pkg, cache') := GetCachedVersionPackage(k, vm, cache, versionId).value;
      GetCachedVersionPackage(k', vm, cache', versionId) == Ok((pkg, cache'))
  {
  }

  /** `launchProfile(profile)`: fails on an undefined profile before anything
      else happens; otherwise loads the version package and resolves its
      assets. The state is returned with the outcome: a package fetched and
      written to the cache stays cached even when the asset index then
      cannot be fetched. */
  method LaunchProfile(k: Services, vm: VersionManager, ws: AssetWorkspace, profile: Option<Profile>, st: LauncherState)
    returns (r: Result<()>, st': LauncherState)
    ensures profile.None? ==> r == Err(ProfileUndefined) && st' == st
    ensures profile.Some? && profile.value.versionId !in vm.packageInfo ==>
      r == Err(InvalidVersion(profile.value.versionId)) && st' == st
    ensures profile.Some? ==>
      var loaded := GetCachedVersionPackage(k, vm, st.versionCache, profile.value.versionId);
      && (loaded.Err? ==> r == Err(loaded.error) && st' == st)
      && (loaded.Ok? ==> && st'.versionCache == loaded.value.1
                         && (r.Err? <==> k.assetIndex(loaded.value.0).None?)
                         && (r.Err? ==> r.error == NetworkFailure && st'.pool == st.pool))
    ensures r.Ok? ==>
      && profile.Some?
      && var (pkg, _) := GetCachedVersionPackage(k, vm, st.versionCache, profile.value.versionId).value;
      && st'.pool.processes == []
      && st'.pool.concurrency == st.pool.concurrency
      && st'.pool.handedOff
         == st.pool.handedOff + [Batch(st.pool.processes + MissingAssets(k, ws, k.assetIndex(pkg).value), 4)]
  {
    if profile.None? {
      return Err(ProfileUndefined), st;
    }
    var loaded := GetCachedVersionPackage(k, vm, st.versionCache, profile.value.versionId);
    if loaded.Err? {
      return Err(loaded.error), st;
    }
    var (pkg, cache') := loaded.value;
    var resolved := ResolveProfileAsset(k, ws, pkg, st.pool);
    if resolved.Err? {
      return Err(resolved.error), st.(versionCache := cache');
    }
    return Ok(()), LauncherState(cache', resolved.value);
  }
}

=== FILE: library.dfy ===
/** Library file locations (`src/main/library.ts`): where a library's
    artifact jar and its platform-specific natives archive live under the
    library workspace, and whether they exist there. */
module Libraries {
  import opened Wrappers
  import opened Errors
  import opened Paths

  datatype Platform = Osx | Windows | Linux

  /** A downloadable file of a library (`downloads.artifact` or one classifier). */
  datatype Artifact = Artifact(path: string, sha1: string, size: int, url: string)

  /** A library of a version package: `downloads.artifact`,
      `downloads.classifiers` and `natives` may each be absent. */
  datatype Library = Library(
    name: string,
    artifact: Option<Artifact>,
    classifiers: Option<map<string, Artifact>>,
    natives: Option<map<Platform, string>>)

  /** `library.natives[platform]` with natives present. A platform missing
      from the map reads as `undefined`, which indexes the classifiers
      under the key "undefined". */
  function ClassifierKey(natives: map<Platform, string>, platform: Platform): (key: string)
    ensures platform in natives ==> key == natives[platform]
    ensures platform !in natives ==> key == "undefined"
  {
    if platform in natives then natives[platform] else "undefined"
  }

  /** `getLibraryArtifactsFilePath(library)`: the workspace directory followed
      by the pieces of `downloads.artifact.path` split on "/"; fails when the
      library has no artifact. */
  function ArtifactsFilePath(workspace: Path, lib: Library): (r: Result<Path>)
    ensures lib.artifact.None? <==> r.Err?
    ensures r.Err? ==> r.error == MissingArtifact(lib.name)
    ensures r.Ok? ==> && |r.value| > |workspace|
                      && r.value[..|workspace|] == workspace
                      && JoinWith(r.value[|workspace|..], '/') == lib.artifact.value.path
                      && forall i :: |workspace| <= i < |r.value| ==> '/' !in r.value[i]
  {
    if lib.artifact.None? then Err(MissingArtifact(lib.name))
    else
      var segments := Split(lib.artifact.value.path, '/');
      Ok(Join(workspace, segments))
  }

  /** `getLibraryNativesClassifiers(library, platform)`: the classifier record
      named by `natives[platform]`. */
  function NativesClassifiers(lib: Library, platform: Platform): (r: Result<Artifact>)
    ensures lib.natives.None? ==> r == Err(MissingNatives(lib.name))
    ensures lib.natives.Some? && lib.classifiers.None? ==> r == Err(ClassifiersUndefined(ClassifierKey(lib.natives.value, platform)))
    ensures lib.natives.Some? && lib.classifiers.Some? ==>
      var key := ClassifierKey(lib.natives.value, platform);
      && (key !in lib.classifiers.value ==> r == Err(MissingClassifiers(key, lib.name)))
      && (key in lib.classifiers.value ==> r == Ok(lib.classifiers.value[key]))
  {
    match lib.natives
    case None => Err(MissingNatives(lib.name))
    case Some(natives) =>
      var key := ClassifierKey(natives, platform);
      match lib.classifiers
      case None => Err(ClassifiersUndefined(key))
      case Some(classifiers) =>
        if key !in classifiers then Err(MissingClassifiers(key, lib.name))
        else Ok(classifiers[key])
  }

  /** `getLibraryNativesFilePath(library, platform)`: the same lookup as
      `getLibraryNativesClassifiers`, written out a second time in the
      source, then the classifier's path split on "/" after the workspace.
      The two lookups fail together with the same error. */
  function NativesFilePath(workspace: Path, lib: Library, platform: Platform): (r: Result<Path>)
    ensures r.Err? <==> NativesClassifiers(lib, platform).Err?
    ensures r.Err? ==> r.error == NativesClassifiers(lib, platform).error
    ensures r.Ok? ==> && r.value == workspace + Split(NativesClassifiers(lib, platform).value.path, '/')
                      && JoinWith(r.value[|workspace|..], '/') == NativesClassifiers(lib, platform).value.path
  {
    if lib.natives.None? then Err(MissingNatives(lib.name))
    else
      var key := ClassifierKey(lib.natives.value, platform);
      if lib.classifiers.None? then Err(ClassifiersUndefined(key))
      else if key !in lib.classifiers.value then Err(MissingClassifiers(key, lib.name))
      else
        var r := Join(workspace, Split(lib.classifiers.value[key].path, '/'));
        assert r[|workspace|..] == Split(lib.classifiers.value[key].path, '/');
        Ok(r)
  }

  /** `hasArtifactsLibrary(library)`: exactly the existence of the artifact
      file path, failing whenever that path cannot be computed. */
  function HasArtifactsLibrary(fileExists: Path -> bool, workspace: Path, lib: Library): (r: Result<bool>)
    ensures r.Err? <==> lib.artifact.None?
    ensures r.Err? ==> r.error == MissingArtifact(lib.name)
    ensures r.Ok? ==> r.value == fileExists(workspace + Split(lib.artifact.value.path, '/'))
  {
    match ArtifactsFilePath(workspace, lib)
    case Err(e) => Err(e)
    case Ok(p) => Ok(fileExists(p))
  }

  /** `hasNativesLibrary(library, platform)`: exactly the existence of the
      natives file path, failing whenever that path cannot be computed. */
  function HasNativesLibrary(fileExists: Path -> bool, workspace: Path, lib: Library, platform: Platform): (r: Result<bool>)
    ensures r.Err? <==> NativesClassifiers(lib, platform).Err?
    ensures r.Err? ==> r.error == NativesClassifiers(lib, platform).error
    ensures r.Ok? ==> r.value == fileExists(workspace + Split(NativesClassifiers(lib, platform).value.path, '/'))
  {
    match NativesFilePath(workspace, lib, platform)
    case Err(e) => Err(e)
    case Ok(p) => Ok(fileExists(p))
  }

  /** An artifact path that is itself a "/"-joined list of plain names is
      laid out under the workspace as exactly those names. */
  lemma ArtifactPathSegments(workspace: Path, lib: Library, names: seq<string>)
    requires |names| >= 1 && forall i :: 0 <= i < |names| ==> '/' !in names[i]
    requires lib.artifact.Some? && lib.artifact.value.path == JoinWith(names, '/')
    ensures ArtifactsFilePath(workspace, lib) == Ok(workspace + names)
  {
    SplitJoinWith(names, '/');
  }
}

=== FILE: paths.dfy ===
/** File paths as sequences of segments, and JavaScript's `String.split` on a
    single separator character together with its inverse. */
module Paths {

  /** A file path, one directory or file name per element. */
  type Path = seq<string>

  /** `path.join(base, ...segments)`, without Node's normalisation. */
  function Join(base: Path, segments: seq<string>): (r: Path)
    ensures |r| == |base| + |segments|
    ensures r[..|base|] == base && r[|base|..] == segments
  {
    base + segments
  }

  /** `parts.join(sep)`. */
  function JoinWith(parts: seq<string>, sep: char): string
  {
    if |parts| == 0 then ""
    else if |parts| == 1 then parts[0]
    else parts[0] + [sep] + JoinWith(parts[1..], sep)
  }

  /** `s.split(sep)`: always at least one piece, no piece holds `sep`, and
      joining the pieces back with `sep` gives `s`. */
  function Split(s: string, sep: char): (r: seq<string>)
    ensures |r| >= 1
    ensures forall i :: 0 <= i < |r| ==> sep !in r[i]
    ensures JoinWith(r, sep) == s
    decreases |s|
  {
    if |s| == 0 then [""]
    else
      var rest := Split(s[1..], sep);
      if s[0] == sep then
        assert JoinWith([""] + rest, sep) == [sep] + JoinWith(rest, sep) by {
          assert ([""] + rest)[1..] == rest;
        }
        assert s == [s[0]] + s[1..];
        [""] + rest
      else
        var parts := [[s[0]] + rest[0]] + rest[1..];
        assert JoinWith(parts, sep) == [s[0]] + JoinWith(rest, sep) by {
          if |rest| > 1 {
            assert parts[1..] == rest[1..];
            assert JoinWith(rest, sep) == rest[0] + [sep] + JoinWith(rest[1..], sep);
          }
        }
        assert s == [s[0]] + s[1..];
        parts
  }

  /** A string without the separator splits into itself. */
  lemma {:induction false} SplitNoSeparator(s: string, sep: char)
    requires sep !in s
    ensures Split(s, sep) == [s]
    decreases |s|
  {
    if |s| > 0 {
      assert sep !in s[1..];
      SplitNoSeparator(s[1..], sep);
      assert s == [s[0]] + s[1..];
    }
  }

  /** Splitting at the first separator. */
  lemma {:induction false} SplitAtFirst(a: string, b: string, sep: char)
    requires sep !in a
    ensures Split(a + [sep] + b, sep) == [a] + Split(b, sep)
    decreases |a|
  {
    var s := a + [sep] + b;
    if |a| == 0 {
      assert s[0] == sep && s[1..] == b;
    } else {
      assert s[0] == a[0] && s[1..] == a[1..] + [sep] + b;
      assert sep !in a[1..];
      SplitAtFirst(a[1..], b, sep);
      assert [a[0]] + a[1..] == a;
    }
  }

  /** `split` undoes `join` when no piece holds the separator: with the
      ensures of `Split`, the two are inverse bijections. */
  lemma {:induction false} SplitJoinWith(parts: seq<string>, sep: char)
    requires |parts| >= 1
    requires forall i :: 0 <= i < |parts| ==> sep !in parts[i]
    ensures Split(JoinWith(parts, sep), sep) == parts
  {
    if |parts| == 1 {
      SplitNoSeparator(parts[0], sep);
    } else {
      SplitJoinWith(parts[1..], sep);
      SplitAtFirst(parts[0], JoinWith(parts[1..], sep), sep);
      assert [parts[0]] + parts[1..] == parts;
    }
  }
}

=== FILE: profile.dfy ===
/** Launcher profiles (`src/main/profile.ts`): a list-backed store kept in
    memory by a `ProfileManager` and written to `profiles.json` after every
    change, plus the lazily created process-wide manager. */
module Profiles {
  import opened Wrappers
  import opened Errors
  import opened Seqs
  import opened Kratos

  datatype Profile = Profile(id: string, versionId: string, name: string)

  datatype ProfileManager = ProfileManager(profileList: seq<Profile>, versionManager: VersionManager)

  /** A manager together with the contents of `profiles.json` (`None`: no file). */
  datatype ProfileStore = ProfileStore(manager: ProfileManager, file: Option<seq<Profile>>)

  /** Some profile in `list` has this id. */
  ghost predicate Listed(list: seq<Profile>, id: string)
  {
    exists i :: 0 <= i < |list| && list[i].id == id
  }

  /** `new ProfileManager(versionManager)`: fails without a version manager;
      starts from the stored list, or from the empty list when there is no file. */
  function NewProfileManager(vm: Option<VersionManager>, file: Option<seq<Profile>>): (r: Result<ProfileManager>)
    ensures vm.None? <==> r.Err?
    ensures r.Err? ==> r.error == VersionManagerUndefined
    ensures r.Ok? ==> r.value.versionManager == vm.value
    ensures r.Ok? && file.None? ==> r.value.profileList == []
    ensures r.Ok? && file.Some? ==> r.value.profileList == file.value
  {
    if vm.None? then Err(VersionManagerUndefined)
    else if file.None? then Ok(ProfileManager([], vm.value))
    else Ok(ProfileManager(file.value, vm.value))
  }

  /** `storeProfile()`: the file now holds the manager's list. */
  function StoreProfile(s: ProfileStore): (r: ProfileStore)
    ensures r.manager == s.manager && r.file == Some(s.manager.profileList)
  {
    s.(file := Some(s.manager.profileList))
  }

  /** `createProfile(name, versionId)`, `id` being the fresh random UUID. */
  function CreateProfile(s: ProfileStore, id: string, name: string, versionId: string): (r: (ProfileStore, Profile))
    ensures r.1.id == id && r.1.name == name && r.1.versionId == versionId
    ensures r.0.manager.profileList == s.manager.profileList + [r.1]
    ensures r.0.manager.versionManager == s.manager.versionManager
    ensures r.0.file == Some(r.0.manager.profileList)
  {
    var profile := Profile(id, versionId, name);
    var m := s.manager.(profileList := s.manager.profileList + [profile]);
    (StoreProfile(s.(manager := m)), profile)
  }

  /** `deleteProfile(id)`: every profile with that id goes, the others stay
      in order, and the new list is stored. */
  function DeleteProfile(s: ProfileStore, id: string): (r: ProfileStore)
    ensures !Listed(r.manager.profileList, id)
    ensures forall i :: 0 <= i < |r.manager.profileList| ==> r.manager.profileList[i] in s.manager.profileList
    ensures forall i :: 0 <= i < |s.manager.profileList| && s.manager.profileList[i].id != id
              ==> s.manager.profileList[i] in r.manager.profileList
    ensures r.manager.versionManager == s.manager.versionManager
    ensures r.file == Some(r.manager.profileList)
  {
    var m := s.manager.(profileList := Filter((p: Profile) => p.id != id, s.manager.profileList));
    StoreProfile(s.(manager := m))
  }

  /** Deleting from a concatenation deletes from each part, in place: with
      `DeleteProfileSingle` this fixes the kept profiles' order and count. */
  lemma DeleteProfileConcat(s: ProfileStore, xs: seq<Profile>, ys: seq<Profile>, id: string)
    ensures DeleteProfile(s.(manager := s.manager.(profileList := xs + ys)), id).manager.profileList
         == DeleteProfile(s.(manager := s.manager.(profileList := xs)), id).manager.profileList
          + DeleteProfile(s.(manager := s.manager.(profileList := ys)), id).manager.profileList
  {
    FilterConcat((p: Profile) => p.id != id, xs, ys);
  }

  /** A single profile is kept exactly when its id differs from the deleted one. */
  lemma DeleteProfileSingle(s: ProfileStore, p: Profile, id: string)
    ensures DeleteProfile(s.(manager := s.manager.(profileList := [p])), id).manager.profileList
         == if p.id == id then [] else [p]
  {
  }

  /** `hasProfile(id)`. */
  function HasProfile(m: ProfileManager, id: string): (r: bool)
    ensures r <==> Listed(m.profileList, id)
  {
    FindFirst((p: Profile) => p.id == id, m.profileList).Some?
  }

  /** `getProfile(id)`: the first profile with that id; fails when none has it. */
  function GetProfile(m: ProfileManager, id: string): (r: Result<Profile>)
    ensures r.Err? <==> !Listed(m.profileList, id)
    ensures r.Err? ==> r.error == ProfileNotFound(id)
    ensures r.Ok? ==> exists i :: && 0 <= i < |m.profileList|
                                   && m.profileList[i] == r.value
                                   && r.value.id == id
                                   && (forall j :: 0 <= j < i ==> m.profileList[j].id != id)
  {
    match FindFirst((p: Profile) => p.id == id, m.profileList)
    case None => Err(ProfileNotFound(id))
    case Some(i) => Ok(m.profileList[i])
  }

  /** `getAllProfiles()`. */
  function GetAllProfiles(m: ProfileManager): seq<Profile>
  {
    m.profileList
  }

  /** With a fresh id, the created profile is found and is exactly the
      record `{id, name, versionId}`. */
  lemma CreateThenGet(s: ProfileStore, id: string, name: string, versionId: string)
    requires !Listed(s.manager.profileList, id)
    ensures var m := CreateProfile(s, id, name, versionId).0.manager;
      && HasProfile(m, id)
      && GetProfile(m, id) == Ok(Profile(id, versionId, name))
  {
    var m := CreateProfile(s, id, name, versionId).0.manager;
    assert m.profileList[|s.manager.profileList|].id == id;
  }

  /** Deleting a freshly created profile restores the list it was created in. */
  lemma {:induction false} CreateThenDelete(s: ProfileStore, id: string, name: string, versionId: string)
    requires !Listed(s.manager.profileList, id)
    ensures var created := CreateProfile(s, id, name, versionId);
      && DeleteProfile(created.0, id).manager.profileList == s.manager.profileList
      && !HasProfile(DeleteProfile(created.0, id).manager, id)
  {
    var keep := (p: Profile) => p.id != id;
    var created := CreateProfile(s, id, name, versionId);
    FilterConcat(keep, s.manager.profileList, [created.1]);
    FilterKeepsAll(keep, s.manager.profileList);
    assert Filter(keep, [created.1]) == [];
  }

  /** Whether the launcher workspace and the global version manager exist. */
  datatype AppState = AppState(workspaceReady: bool, versionManager: Option<VersionManager>)

  /** The module-level `globalProfileManager` and the contents of `profiles.json`. */
  datatype ProfileGlobals = ProfileGlobals(global: Option<ProfileManager>, file: Option<seq<Profile>>)

  /** `getProfileManager()`: fails while the app is not ready; otherwise
      creates the manager on the first call and returns that same manager
      on every later call. */
  function GetProfileManager(app: AppState, g: ProfileGlobals): (r: Result<(ProfileManager, ProfileGlobals)>)
    ensures (!app.workspaceReady || app.versionManager.None?) <==> r.Err?
    ensures r.Err? ==> r.error == AppNotReady
    ensures r.Ok? ==> r.value.1 == g.(global := Some(r.value.0))
    ensures r.Ok? && g.global.Some? ==> r.value.0 == g.global.value
    ensures r.Ok? && g.global.None? ==> r.value.0.versionManager == app.versionManager.value
    ensures r.Ok? && g.global.None? ==> r.value.0.profileList == g.file.OrElse([])
  {
    if !app.workspaceReady || app.versionManager.None? then Err(AppNotReady)
    else if g.global.Some? then Ok((g.global.value, g))
    else
      match NewProfileManager(app.versionManager, g.file)
      case Err(e) => Err(e)
      case Ok(m) => Ok((m, g.(global := Some(m))))
  }

  /** Once created, the global manager is returned unchanged by later calls. */
  lemma GetProfileManagerOnce(app: AppState, g: ProfileGlobals)
    requires GetProfileManager(app, g).Ok?
    ensures var (m, g') := GetProfileManager(app, g).value;
      GetProfileManager(app, g') == Ok((m, g'))
  {
  }

  /** `loadLatestProfile(versionManager)`: a profile named "Latest" for the
      latest release, created in the global manager and stored. */
  function LoadLatestProfile(vm: VersionManager, app: AppState, g: ProfileGlobals, id: string): (r: Result<(Profile, ProfileGlobals)>)
    ensures r.Err? <==> GetProfileManager(app, g).Err?
    ensures r.Ok? ==> r.value.0 == Profile(id, vm.latestReleaseId, "Latest")
    ensures r.Ok? ==> && r.value.1.global.Some?
                      && r.value.1.global.value.profileList
                         == GetProfileManager(app, g).value.0.profileList + [r.value.0]
                      && r.value.1.file == Some(r.value.1.global.value.profileList)
  {
    match GetProfileManager(app, g)
    case Err(e) => Err(e)
    case Ok((m, g')) =>
      var (s, profile) := CreateProfile(ProfileStore(m, g'.file), id, "Latest", vm.latestReleaseId);
      Ok((profile, ProfileGlobals(Some(s.manager), s.file)))
  }
}

=== FILE: request_account.dfy ===
/** The first-run username form
    (`src/render/main/components/RequestAccount/RequestAccount.tsx`): the
    username check run when Start is clicked, and when Start is enabled. */
module RequestAccount {
  import opened Wrappers
  import opened Errors

  /** An account as the renderer's store keeps it. */
  datatype AccountEntry = AccountEntry(id: string, name: string)

  /** The character class `[a-zA-Z0-9_]`. */
  predicate IsNameChar(c: char)
  {
    ('a' <= c <= 'z') || ('A' <= c <= 'Z') || ('0' <= c <= '9') || c == '_'
  }

  /** The language of `^[a-zA-Z0-9_]{2,16}$`: 2 to 16 characters, all from the class. */
  predicate IsValidUsername(u: string)
  {
    2 <= |u| <= 16 && forall i :: 0 <= i < |u| ==> IsNameChar(u[i])
  }

  /** `pattern.test(username)` as the anchored regular expression runs it:
      consume at most 16 characters of the class, then demand the end of
      the input having consumed at least 2. */
  method TestPattern(u: string) returns (matched: bool)
    ensures matched <==> IsValidUsername(u)
  {
    var consumed := 0;
    while consumed < |u| && consumed < 16 && IsNameChar(u[consumed])
      invariant 0 <= consumed <= |u| && consumed <= 16
      invariant forall j :: 0 <= j < consumed ==> IsNameChar(u[j])
    {
      consumed := consumed + 1;
    }
    matched := consumed == |u| && consumed >= 2;
  }

  /** `handleUsernameCreateClick`: an empty name fails with "Username is
      undefined", any other name outside the pattern with "Invalid
      username…"; a valid name is sent to the main process. Only when that
      request resolves (`reply` is the returned id) is the account appended
      to the stored accounts; a rejected request leaves them as they were,
      the handler having returned without throwing. */
  function HandleUsernameCreateClick(u: string, accounts: seq<AccountEntry>, reply: Option<string>)
    : (r: Result<seq<AccountEntry>>)
    ensures u == "" ==> r == Err(UsernameUndefined)
    ensures u != "" && !IsValidUsername(u) ==> r == Err(InvalidUsername)
    ensures r.Ok? <==> IsValidUsername(u)
    ensures r.Ok? && reply.None? ==> r.value == accounts
    ensures r.Ok? && reply.Some? ==> && |r.value| == |accounts| + 1 && r.value[..|accounts|] == accounts
                                     && r.value[|accounts|] == AccountEntry(reply.value, u)
  {
    if u == "" then Err(UsernameUndefined)
    else if !IsValidUsername(u) then Err(InvalidUsername)
    else match reply
      case None => Ok(accounts)
      case Some(id) => Ok(accounts + [AccountEntry(id, u)])
  }

  /** `s.length`: JavaScript counts UTF-16 code units, so a character above
      U+FFFF (a surrogate pair) counts twice. */
  function Utf16Length(s: string): (n: nat)
    ensures |s| <= n <= 2 * |s|
    ensures (forall i :: 0 <= i < |s| ==> s[i] as int <= 0xFFFF) ==> n == |s|
    ensures (exists i :: 0 <= i < |s| && s[i] as int > 0xFFFF) ==> n > |s|
  {
    if |s| == 0 then 0
    else
      var rest := Utf16Length(s[1..]);
      if s[0] as int > 0xFFFF then
        assert forall i :: 0 < i < |s| ==> s[i] == s[1..][i - 1];
        rest + 2
      else
        assert forall i :: 0 < i < |s| ==> s[i] == s[1..][i - 1];
        rest + 1
  }

  /** Code units add up over concatenation. */
  lemma {:induction false} Utf16LengthConcat(a: string, b: string)
    ensures Utf16Length(a + b) == Utf16Length(a) + Utf16Length(b)
  {
    if |a| > 0 {
      assert (a + b)[0] == a[0];
      assert (a + b)[1..] == a[1..] + b;
      Utf16LengthConcat(a[1..], b);
    } else {
      assert a + b == b;
    }
  }

  /** One character is one code unit, or two (a surrogate pair) above U+FFFF. */
  lemma Utf16LengthChar(c: char)
    ensures Utf16Length([c]) == if c as int > 0xFFFF then 2 else 1
  {
    assert [c][1..] == [];
  }

  /** The Start button's `disabled` attribute. The empty-name test is
      subsumed by the length test. */
  predicate StartDisabled(u: string)
    ensures StartDisabled(u) <==> Utf16Length(u) < 3
  {
    u == "" || Utf16Length(u) < 3
  }

  /** A click on Start: a disabled button delivers no click (`None`). The
      pattern sees code units as well, but a surrogate is outside the class
      just as the whole character is, so only the length test depends on the
      encoding. */
  function ClickStart(u: string, accounts: seq<AccountEntry>, reply: Option<string>)
    : (r: Option<Result<seq<AccountEntry>>>)
    ensures r.None? <==> Utf16Length(u) < 3
    ensures r.Some? ==> r.value.Err? ==> r.value.error == InvalidUsername
    ensures r.Some? ==> (r.value.Ok? <==> IsValidUsername(u))
  {
    if StartDisabled(u) then None else Some(HandleUsernameCreateClick(u, accounts, reply))
  }

  /** The button admits only names of at least 3 code units, so a 2-character
      name that the pattern accepts can never be submitted. */
  lemma TwoCharacterNamesUnsubmittable(accounts: seq<AccountEntry>, reply: Option<string>)
    ensures IsValidUsername("ab")
    ensures HandleUsernameCreateClick("ab", accounts, reply).Ok?
    ensures ClickStart("ab", accounts, reply).None?
    ensures forall u :: ClickStart(u, accounts, reply).Some? ==> |u| >= 2
    ensures forall u :: IsValidUsername(u) ==> (ClickStart(u, accounts, reply).Some? <==> |u| >= 3)
  {
  }

  /** Two characters above U+FFFF are four code units: Start is enabled, and
      the click fails with "Invalid username…". */
  lemma AstralNamesReachTheCheck(accounts: seq<AccountEntry>, reply: Option<string>)
    ensures ClickStart("\U{1F600}\U{1F600}", accounts, reply) == Some(Err(InvalidUsername))
  {
    var u := "\U{1F600}\U{1F600}";
    assert u[0] as int > 0xFFFF && u[1] as int > 0xFFFF;
    assert Utf16Length(u[1..][1..]) == 0;
  }
}

=== FILE: selector.dfy ===
/** The searchable drop-down selector
    (`src/render/main/components/Selector/Selector.tsx`): which entries the
    drop-down lists for the current search text, what the input shows, and
    how focus, typing, selecting and clicking change the component's state. */
module Selector {
  import opened Wrappers
  import opened Seqs

  /** `sub` occurs in `s` starting at position `i`. */
  ghost predicate OccursAt(s: string, sub: string, i: int)
  {
    0 <= i && i + |sub| <= |s| && s[i..i + |sub|] == sub
  }

  /** Occurrences past the first position are the occurrences in the tail. */
  lemma OccursInTail(s: string, sub: string)
    requires |s| > 0
    ensures forall i :: 1 <= i ==> (OccursAt(s, sub, i) <==> OccursAt(s[1..], sub, i - 1))
  {
    forall i | 1 <= i
      ensures OccursAt(s, sub, i) <==> OccursAt(s[1..], sub, i - 1)
    {
      if i + |sub| <= |s| {
        var a, b := s[i..i + |sub|], s[1..][i - 1..i - 1 + |sub|];
        assert |a| == |b|;
        forall k | 0 <= k < |a| ensures a[k] == b[k] {
          assert a[k] == s[i + k];
          assert b[k] == s[1..][i - 1 + k];
        }
        assert a == b;
      }
    }
  }

  /** `s.includes(sub)`: true exactly when `sub` occurs somewhere in `s`. */
  function Includes(s: string, sub: string): (r: bool)
    ensures r <==> exists i :: OccursAt(s, sub, i)
    decreases |s|
  {
    if sub <= s then
      assert OccursAt(s, sub, 0);
      true
    else if |s| == 0 then false
    else
      OccursInTail(s, sub);
      assert !OccursAt(s, sub, 0);
      var r := Includes(s[1..], sub);
      assert r ==> exists i :: OccursAt(s, sub, i) by {
        if r {
          var j :| OccursAt(s[1..], sub, j);
          assert OccursAt(s, sub, j + 1);
        }
      }
      r
  }

  /** One item offered by the selector; `disabled` is optional. */
  datatype Item = Item(text: string, id: string, disabled: Option<bool>)

  /** `items.filter((item) => item.text.includes(searchValue))`. */
  function Matching(items: seq<Item>, search: string): (r: seq<Item>)
    ensures |r| <= |items|
    ensures forall i :: 0 <= i < |r| ==> r[i] in items && Includes(r[i].text, search)
    ensures forall i :: 0 <= i < |items| && Includes(items[i].text, search) ==> items[i] in r
  {
    Filter((it: Item) => Includes(it.text, search), items)
  }

  /** A row of the drop-down: the disabled "There are no items" placeholder,
      or an item with its `disabled` flag. */
  datatype Entry = NoItems | Choice(item: Item, disabled: bool)

  /** The rows the open drop-down renders. */
  function Entries(items: Option<seq<Item>>, search: string): (r: seq<Entry>)
    ensures |r| >= 1
    ensures r == [NoItems] <==> items.None? || |Matching(items.value, search)| == 0
    ensures forall i :: 0 <= i < |r| && r[i].Choice? ==> r[i].disabled == (r[i].item.disabled == Some(true))
  {
    if items.None? || |Matching(items.value, search)| == 0 then [NoItems]
    else Map((it: Item) => Choice(it, it.disabled == Some(true)), Matching(items.value, search))
  }

  /** With some item matching, the rows list exactly the items whose text
      contains the search text, each in its original relative order. */
  lemma EntriesListMatchingItems(items: seq<Item>, search: string)
    requires |Matching(items, search)| > 0
    ensures var r := Entries(Some(items), search);
      && |r| == |Matching(items, search)|
      && (forall i :: 0 <= i < |r| ==> r[i].Choice? && r[i].item == Matching(items, search)[i])
      && (forall i :: 0 <= i < |r| ==> r[i].item in items && Includes(r[i].item.text, search))
      && (forall i :: 0 <= i < |items| && Includes(items[i].text, search) ==>
            exists j :: 0 <= j < |r| && r[j].item == items[i])
  {
    var m := Matching(items, search);
    var r := Entries(Some(items), search);
    forall i | 0 <= i < |items| && Includes(items[i].text, search)
      ensures exists j :: 0 <= j < |r| && r[j].item == items[i]
    {
      assert items[i] in m;
      var j :| 0 <= j < |m| && m[j] == items[i];
      assert r[j].item == items[i];
    }
  }

  /** The empty search text matches every item. */
  lemma EmptySearchMatchesAll(items: seq<Item>)
    ensures Matching(items, "") == items
  {
    forall i | 0 <= i < |items| ensures Includes(items[i].text, "") {
      assert OccursAt(items[i].text, "", 0);
    }
    FilterKeepsAll((it: Item) => Includes(it.text, ""), items);
  }

  /** The component's state; `selections` records the calls made to the
      parent's `onSelectItem`, oldest first. */
  datatype SelectorState = SelectorState(
    dropdownVisible: bool,
    didSelected: bool,
    searchValue: string,
    selections: seq<Item>)

  /** The state on first render. */
  const InitialState: SelectorState := SelectorState(false, false, "", [])

  /** `handleVisibleDropdown` (input focus): opens the drop-down. */
  function HandleVisibleDropdown(s: SelectorState): (r: SelectorState)
    ensures r.dropdownVisible
    ensures r.didSelected == s.didSelected && r.searchValue == s.searchValue && r.selections == s.selections
  {
    s.(dropdownVisible := true)
  }

  /** The click-outside handler: closes the drop-down. */
  function ClickOutside(s: SelectorState): (r: SelectorState)
    ensures !r.dropdownVisible
    ensures r.didSelected == s.didSelected && r.searchValue == s.searchValue && r.selections == s.selections
  {
    s.(dropdownVisible := false)
  }

  /** `handleSearchVersion` (typing): the search text becomes the input and
      any previous selection stops being displayed. */
  function HandleSearchVersion(s: SelectorState, value: string): (r: SelectorState)
    ensures r.searchValue == value && !r.didSelected
    ensures r.dropdownVisible == s.dropdownVisible && r.selections == s.selections
  {
    var s1 := if s.didSelected then s.(didSelected := false) else s;
    s1.(searchValue := value)
  }

  /** `handleOnSelect(item)`: reports the item to the parent, clears the
      search, marks a selection made, and closes the drop-down. */
  function HandleOnSelect(s: SelectorState, item: Item): (r: SelectorState)
    ensures r.selections == s.selections + [item]
    ensures r.searchValue == "" && r.didSelected && !r.dropdownVisible
  {
    var notified := s.(selections := s.selections + [item]);
    notified.(searchValue := "", didSelected := true, dropdownVisible := false)
  }

  /** The input's `value`: the current item's text after a selection,
      "undefined" after a selection with no current item, else the search text. */
  function InputValue(s: SelectorState, currentItem: Option<Item>): (v: string)
    ensures !s.didSelected ==> v == s.searchValue
    ensures s.didSelected && currentItem.Some? ==> v == currentItem.value.text
    ensures s.didSelected && currentItem.None? ==> v == "undefined"
  {
    if s.didSelected then
      if currentItem.Some? then currentItem.value.text else "undefined"
    else s.searchValue
  }

  /** `SelectorItem`'s click guard: the handler runs unless the row is
      explicitly disabled, and only when one was given. */
  predicate ClickFires(disabled: Option<bool>, hasOnClick: bool)
  {
    !(disabled.Some? && disabled.value == true) && hasOnClick
  }

  /** A click on a rendered row. The placeholder is disabled and has no
      handler; an item row's handler is `handleOnSelect(item)`. */
  function ClickEntry(s: SelectorState, e: Entry): (r: SelectorState)
    ensures e.NoItems? ==> r == s
    ensures e.Choice? && e.disabled ==> r == s
    ensures e.Choice? && !e.disabled ==> && r.selections == s.selections + [e.item]
                                         && r.didSelected && !r.dropdownVisible && r.searchValue == ""
  {
    match e
    case NoItems => s  // the placeholder row has no click handler
    case Choice(item, d) => if ClickFires(Some(d), true) then HandleOnSelect(s, item) else s
  }

  /** After a selection the input shows the chosen item once the parent
      makes it current; typing then shows exactly what was typed. */
  lemma SelectThenType(s: SelectorState, item: Item, typed: string)
    ensures InputValue(HandleOnSelect(s, item), Some(item)) == item.text
    ensures InputValue(HandleOnSelect(s, item), None) == "undefined"
    ensures InputValue(HandleSearchVersion(HandleOnSelect(s, item), typed), Some(item)) == typed
  {
  }

  /** After a selection the search is empty, so reopening the drop-down
      lists every item again. */
  lemma ReopenAfterSelectListsAll(s: SelectorState, items: seq<Item>, item: Item)
    requires |items| > 0
    ensures HandleVisibleDropdown(HandleOnSelect(s, item)).dropdownVisible
    ensures var r := Entries(Some(items), HandleVisibleDropdown(HandleOnSelect(s, item)).searchValue);
      && |r| == |items|
      && forall i :: 0 <= i < |r| ==> r[i] == Choice(items[i], items[i].disabled == Some(true))
  {
    EmptySearchMatchesAll(items);
  }
}

=== FILE: seqs.dfy ===
/** The Array.prototype operations the launcher relies on (`filter`, `map`,
    `find`), as recursive functions over sequences, with the facts the other
    modules use about them. */
module Seqs {
  import opened Wrappers

  /** `s.filter(p)`: the elements satisfying `p`, in their original order. */
  function Filter<T>(p: T -> bool, s: seq<T>): (r: seq<T>)
    ensures |r| <= |s|
    ensures forall i :: 0 <= i < |r| ==> r[i] in s && p(r[i])
    ensures forall i :: 0 <= i < |s| && p(s[i]) ==> s[i] in r
  {
    if |s| == 0 then []
    else if p(s[0]) then [s[0]] + Filter(p, s[1..])
    else Filter(p, s[1..])
  }

  /** `s.map(f)`. */
  function Map<T, U>(f: T -> U, s: seq<T>): (r: seq<U>)
    ensures |r| == |s|
    ensures forall i :: 0 <= i < |s| ==> r[i] == f(s[i])
  {
    if |s| == 0 then [] else [f(s[0])] + Map(f, s[1..])
  }

  /** `s.find(p)`, as the position of the first element satisfying `p`
      (`None` where `find` gives `undefined`). */
  function FindFirst<T>(p: T -> bool, s: seq<T>): (r: Option<nat>)
    ensures r.Some? ==> r.value < |s| && p(s[r.value])
    ensures r.Some? ==> forall j :: 0 <= j < r.value ==> !p(s[j])
    ensures r.None? <==> forall j :: 0 <= j < |s| ==> !p(s[j])
  {
    if |s| == 0 then None
    else if p(s[0]) then Some(0)
    else match FindFirst(p, s[1..])
      case None => None
      case Some(i) => Some(i + 1)
  }

  /** Filtering distributes over concatenation: together with the singleton
      cases this pins down that `Filter` keeps the original order. */
  lemma {:induction false} FilterConcat<T>(p: T -> bool, a: seq<T>, b: seq<T>)
    ensures Filter(p, a + b) == Filter(p, a) + Filter(p, b)
  {
    if |a| == 0 {
      assert a + b == b;
    } else {
      assert (a + b)[0] == a[0];
      assert (a + b)[1..] == a[1..] + b;
      FilterConcat(p, a[1..], b);
    }
  }

  /** A filter that rejects nothing is the identity. */
  lemma {:induction false} FilterKeepsAll<T>(p: T -> bool, s: seq<T>)
    requires forall i :: 0 <= i < |s| ==> p(s[i])
    ensures Filter(p, s) == s
  {
    if |s| > 0 {
      FilterKeepsAll(p, s[1..]);
    }
  }

  /** A filter that keeps nothing yields the empty sequence. */
  lemma {:induction false} FilterKeepsNone<T>(p: T -> bool, s: seq<T>)
    requires forall i :: 0 <= i < |s| ==> !p(s[i])
    ensures Filter(p, s) == []
  {
    if |s| > 0 {
      FilterKeepsNone(p, s[1..]);
    }
  }

  /** Mapping distributes over concatenation. */
  lemma {:induction false} MapConcat<T, U>(f: T -> U, a: seq<T>, b: seq<T>)
    ensures Map(f, a + b) == Map(f, a) + Map(f, b)
  {
    if |a| == 0 {
      assert a + b == b;
    } else {
      assert (a + b)[1..] == a[1..] + b;
      MapConcat(f, a[1..], b);
    }
  }

  /** Filtering then mapping a sequence extended by one element extends the
      result by that element's image exactly when it passes the filter. */
  lemma MapFilterSnoc<T, U>(f: T -> U, p: T -> bool, s: seq<T>, x: T)
    ensures Map(f, Filter(p, s + [x])) == Map(f, Filter(p, s)) + (if p(x) then [f(x)] else [])
  {
    FilterConcat(p, s, [x]);
    var tail := Filter(p, [x]);
    assert tail == if p(x) then [x] else [];
    MapConcat(f, Filter(p, s), tail);
  }
}

=== FILE: wrappers.dfy ===
/** Option for JavaScript's `undefined`, Result for a call that may throw. */
module Wrappers {
  import opened Errors

  datatype Option<+T> = None | Some(value: T) {
    /** JavaScript's `x || fallback` for an optional argument: the value
        when one was given, the fallback for `undefined`. */
    function OrElse(fallback: T): T
    {
      match this
      case Some(v) => v
      case None => fallback
    }
  }

  datatype Result<+T> = Ok(value: T) | Err(error: Error)
}
